=== FILE: README.md ===
# attribo-backend model layer in Dafny

attribo-backend lets a creator run a *campaign*. A campaign offers several
*options*, each with a minimum and maximum number of places. *Participants*
rank the options, and each ranking is stored as *wish* rows
`(participantId, optionId, rank)`. This project models the three model
classes of the backend: `Participants`, `Campaigns` and `Options`.

The store is an immutable record of four tables (`Store.Db`). Each table is
a sequence, so row order is retrieval order. The queries are pure functions
of the store. Every add, edit and delete is one atomic transition from store
to store. A transition that throws inside its transaction yields the store it
started from, paired with an error (`Store.Txn`, `Wrappers.Result`).

Files:

- `wrappers.dfy`: `Option`, `Result` and the error kinds, plus the
  order-keeping `Filter` and `First`.
- `store.dfy`: the tables and the queries the model layer shares, such as
  "the options of a campaign".
- `store.dfy` also defines the store invariant `Valid`: ids are unique, and
  every option satisfies the creation schema (`1 <= min <= max`, name of
  1 to 32 characters).
- `ranking.dfy`: the wish-ranking reconciliation of `Participants.getFromId`
  as functions over a slot sequence.
- `ranking.dfy` also holds a reference definition, `Interleave`, that
  involves no cursor.
- `ranking_facts.dfy`: the reconciliation equals the reference. It is a
  permutation, keeps order, fills gaps, and handles the worked examples.
- `ranking_loop.dfy`: the same reconciliation written as the JavaScript
  writes it, with mutable slots, a forward-only cursor and a push past the
  end. Each loop is proved equal to its functional counterpart.
- `status.dfy`: the SQL `CASE` that derives a campaign's status from
  `NOW()`, `start` and `end`.
- `participants.dfy`, `campaigns.dfy` and `options.dfy`: one function per
  model method, with lemmas about what each transition does and how the
  methods compose. Examples: edit then view, delete then view, add then
  list.

## Model

| member | source | states |
|---|---|---|
| RankingFacts.ReconcileIsInterleave | models/participants.js:71-111 | The slot-and-cursor reconciliation yields the same ranking as the cursor-free reference merge, for every row order and every rank pattern, including duplicate, zero and out-of-range ranks. |
| RankingLoop.ReconcileRows | models/participants.js:71-111 | The imperative version computes exactly the functional `Reconcile`: the `reduce`, the placement loop, the forward-only cursor loop with its push past the end, and the final `filter`. |
| RankingLoop.FillUnranked | models/participants.js:87-108 | The cursor walk never changes a slot that was already filled. Its result equals the recursive `Fill`, and it never shrinks the slot array. |
| RankingLoop.DropEmpty | models/participants.js:111 | The returned ranking holds only the filled slots, in slot order, so no empty slot survives. |
| RankingFacts.ReconcileIsPermutation | models/participants.js:57-111 | When no two rows carry the same positive rank, the ranking is a permutation of the options of the rows: every option appears exactly as often as in the rows, so the length equals the number of rows. |
| RankingFacts.ReconcileDrawsFromRows | models/participants.js:71-111 | Even with duplicate ranks, every option in the ranking comes from a row, and no option appears more often than among the rows. |
| RankingFacts.RankedInRankOrder | models/participants.js:75-84 | With distinct ranks, an option of smaller rank appears before an option of larger rank. |
| RankingFacts.UnrankedInRowOrder | models/participants.js:87-108 | Unranked options keep their relative retrieval order, because the cursor never moves backwards. |
| RankingFacts.ReconcileFillsGaps | models/participants.js:87-107 | Given at least as many unranked options as holes, the holes below `maxRank` are filled left to right by the first unranked options, and the rest are appended in order. Given at most as many, there is a cut before which the holes are filled left to right by all the unranked options, in order. After the cut only the ranked options remain, in slot order: the unfilled holes vanish and nothing is appended. |
| RankingFacts.ScarceUnrankedExample | models/participants.js:87-111 | X ranked 2, Y ranked 4 and A unranked give [A, X, Y]: A takes the first hole and the hole before Y is dropped. |
| RankingFacts.ReconcileContiguous | models/participants.js:75-108 | When the ranks are exactly 1..n, each used once, the option of rank r sits at position r-1, and the unranked options follow in retrieval order. |
| RankingFacts.GapFillingExample | models/participants.js:87-107 | B ranked 1, D ranked 3, and A then C unranked give [B, A, D, C]. |
| RankingFacts.OrphanRankExample | models/participants.js:71-111 | A lone option ranked 2 gives just that option: the empty first slot is dropped. |
| RankingFacts.DuplicateRankExample | models/participants.js:75-84 | Two rows with rank 1: the later row overwrites the earlier one, whose option disappears. |
| Participants.GetAll | models/participants.js:24-37 | The result is exactly the participant rows whose campaign id matches: every listed row matches, and every matching row is listed. |
| Participants.GetFromId | models/participants.js:48-126 | An unknown participant gives no id, no name and an empty ranking, with no error. A known one gives its id and name, and a ranking drawn only from its campaign's options. |
| Participants.GetFromIdIsPermutation | models/participants.js:57-111 | When the participant's wish rows hold at most one row per option of its campaign and no two with the same positive rank, its ranking lists every option of its campaign exactly once and nothing else. |
| Participants.EditWishesWellFormed | models/participants.js:152-168 | An edit with a list of distinct option ids leaves exactly such wish rows, whatever was stored before, so a view after any such edit is complete. |
| Participants.EditRepeatedIdIllFormed | models/participants.js:164-168 | The edit inserts one wish row per list entry without checking for repeats: a list naming an option of the campaign twice leaves two wish rows for it, so the rows are not well formed. |
| Participants.Edit | models/participants.js:138-182 | An edit without a `wishRanking` fails with a TypeError, and the rollback leaves the store exactly as it was. With a list it succeeds. |
| Participants.EditEffect | models/participants.js:145-168 | After an edit, the participant's wish rows are exactly (id, L[i], i+1) in list order. Every other participant's wish rows are unchanged, and so are the options and campaigns. Only the name of the edited participant changes, and the keys stay unique. |
| Participants.EditIdempotent | models/participants.js:145-168 | Applying the same edit twice leaves the same store as applying it once. |
| Participants.EditThenView | models/participants.js:160-168 | After an edit with a list L of distinct option ids of the participant's campaign, the view shows the new name. Its ranking is L in list order, then the campaign's other options in retrieval order, with one entry per option. |
| Participants.AddEffect | models/participants.js:194-222 | With a fresh id, the new participant is listed last for its campaign, and every other campaign's listing is unchanged. |
| Participants.AddThenView | models/participants.js:194-222 | A new participant, with no stale wish row under its id, sees every option of its campaign unranked, in retrieval order. |
| Participants.DeleteEffect | models/participants.js:231-252 | The participant's wish rows and its row are removed, and every other row is kept. Afterwards its view is empty, every other participant's view is unchanged, and the keys stay unique. |
| Status.StatusAt | models/campaigns.js:36-40 | Pending exactly when now < start. Active exactly when start <= now <= end, both bounds inclusive. Finished exactly when start <= now and now > end. |
| Status.IntervalRule | models/campaigns.js:81-85 | When start <= end the status follows the interval rule, and both boundary instants are active. |
| Status.StatusMonotone | models/campaigns.js:36-40 | As `now` grows the status only moves from pending to active to finished, never back. |
| Status.InvertedNeverActive | models/campaigns.js:36-40 | When start > end, the first-match CASE is never active: it jumps from pending to finished. |
| Campaigns.GetAllComplete | models/campaigns.js:28-43 | Every campaign whose creator is the user is listed. |
| Campaigns.GetAllSound | models/campaigns.js:28-43 | Every listed row is a campaign of that creator, with its id, name and bounds. |
| Campaigns.GetAllCounts | models/campaigns.js:34-40 | In a valid store, each listed row counts the campaign's participant rows and option rows and carries its status at `now`. |
| Campaigns.GetFromId | models/campaigns.js:72-116 | The detail query fails with "campaign not found" exactly when no campaign row has the id. Otherwise it returns that campaign's name and bounds, with its status at `now`. |
| Campaigns.SumsAreWeighted | models/campaigns.js:86-97 | Both sums are NULL when the campaign has no options. Otherwise each sum is the option total multiplied by the number of joined participant/wish rows: one per wish row, one per participant without wishes, at least one. |
| Campaigns.SumsWithoutParticipants | models/campaigns.js:86-97 | With no participants, both sums are the plain sums over the campaign's options. |
| Campaigns.CountsOfDetail | models/campaigns.js:88-97 | `participants` counts the campaign's distinct participants. `wishRankings` counts those with at least one wish row. So `wishRankings <= participants`. |
| Campaigns.GetAllAgreesWithGetFromId | models/campaigns.js:34 | Every listed campaign is found by the detail query, which reports the same participant count. |
| Campaigns.SumsExample | models/campaigns.js:86-87 | Options {min 1, max 3} and {min 2, max 5} with no participants give sums 3 and 8. The campaign is active at a time inside its bounds. |
| Campaigns.WeightedSumsExample | models/campaigns.js:86-97 | The same options with one participant who has two wish rows give sums 6 and 16, each option counted once per joined row. |
| Campaigns.AddEffect | models/campaigns.js:130-157 | With a fresh id, the detail query finds the new campaign with the given name and bounds. It is listed last for its creator, other creators' listings are unchanged, and the keys stay unique. |
| Campaigns.EditEffect | models/campaigns.js:176-181 | Only the name and bounds of the rows with that id change. Ids, creators and the other tables are kept, a missing id changes nothing, and the keys stay unique. |
| Campaigns.EditThenGet | models/campaigns.js:176-181 | After an edit of an existing campaign, the detail query shows the new name and bounds and the status they give at `now`. |
| Campaigns.DeleteEffect | models/campaigns.js:205-231 | The options, the participants and the row of the campaign are removed, and every other row is kept. The wish rows are left as they were. The detail query then fails, and the keys stay unique. |
| Campaigns.DeleteLeavesOrphanWish | models/campaigns.js:212-218 | A wish row of a participant of the deleted campaign survives its participant. |
| Options.AddAsShipped | models/options.js:5-31 | The shipped `add` always fails, and the option table is unchanged. |
| Options.AddAsShippedNeverAdds | models/options.js:11 | For every argument the shipped `add` rolls back to the original store, while the intended `add` would have inserted a row. |
| Options.AddEffect | models/options.js:13-20 | The intended `add` echoes the fields under the new id. The option becomes the last of its campaign's list (for a non-empty campaign id) and can be found by its id, other campaigns' lists are unchanged, and validity is kept when the fields meet the schema. |
| Options.GetAll | models/options.js:41-57 | Without a truthy campaign id there is no result. With one, the result is exactly the options whose campaign id matches. |
| Options.GetAllInStoreOrder | models/options.js:45-51 | The listed options appear in store order. |
| Options.GetFromId | models/options.js:66-79 | Nothing is returned exactly when no option has the id. Otherwise a stored row with that id is returned. |
| Options.GetFromIdUnique | models/options.js:70-73 | In a valid store the returned row is the only one with that id. |
| Options.EditEffect | models/options.js:92-117 | Only the name, min and max of the rows with that id change. The id, the campaign id, the other rows and the other tables stay, a missing id changes nothing, and validity is kept when the fields meet the schema. |
| Options.EditThenGet | models/options.js:98-103 | After an edit of an existing option, looking it up shows the new fields under the same campaign. |
| Options.DeleteEffect | models/options.js:126-149 | The option row and exactly the wish rows naming it are removed, and everything else is kept. The option can no longer be found, and the store stays valid. |
| Options.DeleteThenView | models/options.js:133-136 | After the delete, no participant's reconciled ranking contains the option. |

## Left out

- HTTP routing, the controllers, the Joi schemas' e-mail syntax, login and password hashing, and `models/users.js` are not part of this model. They are library glue or a single passthrough query.
- Only the option schema's numeric and length bounds are used, as the `OptionFieldsOk` part of `Valid`. `Valid` is a hypothesis of the preservation clauses, not a precondition of the operations, because the model layer itself checks nothing.
- The random id generator (`generateRandomId`) is replaced by a `freshId` parameter. Its freshness is a precondition of every add.
- The connection pool and the begin/commit/rollback/release calls are replaced by atomic transitions. Concurrent interleavings, and database failures such as a lost connection or a foreign-key error, are not modelled.
- `NOW()` is the integer parameter `now`, and dates are integers. No date parsing is modelled.
- Participants.EditEffect: the name is always a concrete string. When the edit leaves the name out, the code binds `undefined` and writes SQL NULL, or the column rejects it and the edit rolls back. That outcome is not modelled.
- Campaigns.EditEffect: the name, start and end are always concrete values. The edit schema makes each of them optional, and the code binds an omitted field as SQL NULL, or the column rejects it and the edit rolls back. That outcome is not modelled. A NULL bound would also make the status `CASE` yield NULL, which `CampaignStatus` cannot express.
- Options.EditEffect: the name, minimum and maximum are always concrete values. The code binds an omitted field as SQL NULL, or the column rejects it and the edit rolls back. That outcome is not modelled.
- Participants.GetFromIdIsPermutation: requires well-formed wish rows, because neither the store nor the edit enforces them. With two wish rows for one option, at ranks 1 and 2, the reconciliation places the option in both slots, so it appears twice. An edit with a list of distinct option ids leaves well-formed rows (`Participants.EditWishesWellFormed`). An edit whose list repeats an id, such as `["o", "o"]`, writes the rows `(p, o, 1)` and `(p, o, 2)`, exactly the rows the hypothesis excludes (`Participants.EditRepeatedIdIllFormed`), unless a unique key on the wish table, which the model does not know about, rejects the insert.
- Ids are compared as exact strings (`Store.FindParticipant`, `Store.FindCampaign`, `Store.OptionsOf`, `Store.ParticipantsOf`, `Options.FindOption`). The database compares them under the column's collation, which by default ignores letter case and trailing spaces; the model assumes a binary or case-sensitive collation. Generated ids are lowercase hexadecimal, so only ids supplied by a caller are affected.
- Participants.AddThenView: requires that no stale wish row carries the fresh id. A wish row surviving a campaign delete could otherwise reappear under a reused id.
- Participants.GetFromId: with two participant rows sharing the id, the scalar subquery that selects the participant's campaign returns more than one row, so the database raises an error and the view is not produced. The model instead uses the first such row, and returns its name and its campaign's options. In a valid store participant ids are unique, so only one row exists.
- Campaigns.GetFromId: `GROUP BY campaigns.id` over duplicated campaign ids is modelled by the first such row. In a valid store ids are unique, so only one row exists.
- Campaigns.GetAllCounts: the participant count is proved equal to the row count only in a valid store. Otherwise it is the number of distinct ids, as `COUNT(DISTINCT ...)` computes.
- The wish table is a sequence rather than a set, so that the unordered `LEFT JOIN` has a definite retrieval order. The wish table's order is arbitrary in every property, and the ranking lemmas hold for rows in any order. The join itself (`Participants.JoinRows`) is taken option by option, in the order of the options table, and `Participants.EditThenView` and `Participants.AddThenView` rely on that order.
- A rank is a natural number. A zero rank is treated as unranked, as JavaScript's truthiness does. Negative and non-integer ranks are not modelled.
- The output can never contain an empty slot: the ranking is a sequence of options, so emptiness is ruled out by its type. `DropEmpty` states that it keeps exactly the filled slots in order.

## Findings

| source | as written | input that shows it | evidently intended | confidence | as-written member | corrected member |
|---|---|---|---|---|---|---|
| models/options.js:11 | `Campaigns.generateRandomId(16)` names `Campaigns`, which this file never requires, so the call throws a ReferenceError before any query, and the transaction rolls back | any call, e.g. `add("c1", "Hike", 1, 5)` | generate a fresh id, insert the option, and return `{optionId, name, minParticipants, maxParticipants}` | not executed | Options.AddAsShipped, Options.AddAsShippedNeverAdds | Options.Add, Options.AddEffect |

=== FILE: campaigns.dfy ===
/**
  `Campaigns` of the model layer: the per-creator listing with its counts and
  status, the detail query with its aggregates over a three-way LEFT JOIN, and
  the add, edit and delete transitions. `NOW()` is the parameter `now`.
*/
module Campaigns {
  import opened Wrappers
  import opened Store
  import opened Status

  // ---------------------------------------------------------------------------
  // Distinct participant ids
  // ---------------------------------------------------------------------------

  /** The distinct ids among some participant rows. */
  function IdsOf(ps: seq<Participant>): (ids: set<Id>)
    ensures forall i :: 0 <= i < |ps| ==> ps[i].id in ids
    ensures forall x :: x in ids ==> exists i :: 0 <= i < |ps| && ps[i].id == x
  {
    if |ps| == 0 then {}
    else
      var rest := IdsOf(ps[1..]);
      assert forall x :: x in rest ==> exists i :: 0 <= i < |ps| && ps[i].id == x by {
        forall x | x in rest ensures exists i :: 0 <= i < |ps| && ps[i].id == x {
          var i :| 0 <= i < |ps| - 1 && ps[1..][i].id == x;
          assert ps[i + 1].id == x;
        }
      }
      {ps[0].id} + rest
  }

  /** Without duplicate ids, counting distinct ids counts rows. */
  lemma {:induction false} IdsOfUnique(ps: seq<Participant>)
    requires UniqueParticipantIds(ps)
    ensures |IdsOf(ps)| == |ps|
  {
    if |ps| > 0 {
      var t := ps[1..];
      assert UniqueParticipantIds(t) by {
        forall i, j | 0 <= i < |t| && 0 <= j < |t| && ((p: Participant) => p.id)(t[i]) == ((p: Participant) => p.id)(t[j])
          ensures i == j
        {
          assert ps[i + 1] == t[i] && ps[j + 1] == t[j];
        }
      }
      IdsOfUnique(t);
    }
  }

  // ---------------------------------------------------------------------------
  // getAll
  // ---------------------------------------------------------------------------

  /** One row of `getAll`. */
  datatype Summary = Summary(id: Id, name: string, start: int, end: int, participants: nat, options: nat, status: CampaignStatus)

  /** The campaigns of one creator, in table order. */
  function CreatedBy(db: Db, userId: Id): seq<Campaign>
  {
    Filter((c: Campaign) => c.creatorId == userId, db.campaigns)
  }

  /** The select list of `getAll` for one campaign row: the two correlated sub-selects and the status. */
  function Summarize(db: Db, c: Campaign, now: int): Summary
  {
    Summary(c.id, c.name, c.start, c.end,
            |IdsOf(ParticipantsOf(db, c.id))|, |OptionsOf(db, c.id)|,
            StatusAt(now, c.start, c.end))
  }

  /** `getAll({ userId })`. */
  function GetAll(db: Db, userId: Id, now: int): (r: seq<Summary>)
    ensures |r| <= |db.campaigns|
    ensures forall k :: 0 <= k < |r| ==> r[k].status == StatusAt(now, r[k].start, r[k].end)
  {
    var cs := CreatedBy(db, userId);
    seq(|cs|, i requires 0 <= i < |cs| => Summarize(db, cs[i], now))
  }

  /** Each listed row shows the columns of the corresponding campaign of the creator. */
  lemma GetAllRow(db: Db, userId: Id, now: int, k: nat)
    requires k < |CreatedBy(db, userId)|
    ensures |GetAll(db, userId, now)| == |CreatedBy(db, userId)|
    ensures var c, s := CreatedBy(db, userId)[k], GetAll(db, userId, now)[k];
            s.id == c.id && s.name == c.name && s.start == c.start && s.end == c.end
  {
  }

  /** Every campaign of the creator is listed by `getAll`. */
  lemma GetAllComplete(db: Db, userId: Id, now: int, i: nat)
    requires i < |db.campaigns| && db.campaigns[i].creatorId == userId
    ensures exists k :: 0 <= k < |GetAll(db, userId, now)| && GetAll(db, userId, now)[k].id == db.campaigns[i].id
  {
    var cs := CreatedBy(db, userId);
    assert db.campaigns[i] in cs;
    var k :| 0 <= k < |cs| && cs[k] == db.campaigns[i];
    GetAllRow(db, userId, now, k);
  }

  /** Every row `getAll` lists is a campaign of the creator, with that campaign's name and bounds. */
  lemma GetAllSound(db: Db, userId: Id, now: int, k: nat)
    requires k < |GetAll(db, userId, now)|
    ensures var s := GetAll(db, userId, now)[k];
            exists i :: 0 <= i < |db.campaigns| && db.campaigns[i].creatorId == userId &&
                        db.campaigns[i].id == s.id && db.campaigns[i].name == s.name &&
                        db.campaigns[i].start == s.start && db.campaigns[i].end == s.end
  {
    var cs := CreatedBy(db, userId);
    GetAllRow(db, userId, now, k);
    assert cs[k] in db.campaigns && cs[k].creatorId == userId;
    var i :| 0 <= i < |db.campaigns| && db.campaigns[i] == cs[k];
  }

  /** Each listed campaign carries the number of its participant rows (the keys being unique), the
      number of its option rows and its status at `now`. */
  lemma GetAllCounts(db: Db, userId: Id, now: int, k: nat)
    requires Valid(db)
    requires k < |GetAll(db, userId, now)|
    ensures var s := GetAll(db, userId, now)[k];
            && s.participants == |ParticipantsOf(db, s.id)|
            && s.options == |OptionsOf(db, s.id)|
            && s.status == StatusAt(now, s.start, s.end)
  {
    var s := GetAll(db, userId, now)[k];
    FilterKeepsUnique((p: Participant) => p.id, (p: Participant) => p.campaignId == s.id, db.participants);
    IdsOfUnique(ParticipantsOf(db, s.id));
  }

  // ---------------------------------------------------------------------------
  // getFromId: the three-way LEFT JOIN
  // ---------------------------------------------------------------------------

  /** The participant and wish columns of a join row; NULL is `None`. */
  datatype Tail = Tail(participant: Option<Participant>, wish: Option<Wish>)

  /** A row of the detail query's chain of left joins: campaign, option, participant, wish. */
  datatype JoinRow = JoinRow(option: Option<OptionRow>, participant: Option<Participant>, wish: Option<Wish>)

  /** One joined row per wish of `p`. */
  function WishTailOf(p: Participant, ws: seq<Wish>): (t: seq<Tail>)
    ensures |t| == |ws|
  {
    if |ws| == 0 then [] else [Tail(Some(p), Some(ws[0]))] + WishTailOf(p, ws[1..])
  }

  /** The left join of one participant with the wish table: its wishes, or one NULL row. */
  function WishTail(p: Participant, wishes: seq<Wish>): (t: seq<Tail>)
    ensures |t| >= 1
  {
    var ws := WishesOf(wishes, p.id);
    if |ws| == 0 then [Tail(Some(p), None)] else WishTailOf(p, ws)
  }

  function Tails(ps: seq<Participant>, wishes: seq<Wish>): (t: seq<Tail>)
    ensures |t| >= |ps|
  {
    if |ps| == 0 then [] else WishTail(ps[0], wishes) + Tails(ps[1..], wishes)
  }

  /** The participant/wish part of the join, which every option row meets in full. With no
      participant the LEFT JOIN still yields one all-NULL row. */
  function Block(db: Db, campaignId: Id): (b: seq<Tail>)
    ensures |b| >= 1
  {
    var ps := ParticipantsOf(db, campaignId);
    if |ps| == 0 then [Tail(None, None)] else Tails(ps, db.wishes)
  }

  /** Every tail of the block paired with the option column `o`. */
  function Copy(o: Option<OptionRow>, block: seq<Tail>): (rows: seq<JoinRow>)
    ensures |rows| == |block|
  {
    if |block| == 0 then [] else [JoinRow(o, block[0].participant, block[0].wish)] + Copy(o, block[1..])
  }

  function Somes(opts: seq<OptionRow>): (r: seq<Option<OptionRow>>)
    ensures |r| == |opts|
  {
    if |opts| == 0 then [] else [Some(opts[0])] + Somes(opts[1..])
  }

  /** The option column of the campaign's left join with its options: the options, or one NULL. */
  function OptionColumn(db: Db, campaignId: Id): (r: seq<Option<OptionRow>>)
    ensures |r| >= 1
  {
    var opts := OptionsOf(db, campaignId);
    if |opts| == 0 then [None] else Somes(opts)
  }

  function JoinFor(column: seq<Option<OptionRow>>, block: seq<Tail>): seq<JoinRow>
  {
    if |column| == 0 then [] else Copy(column[0], block) + JoinFor(column[1..], block)
  }

  /** The joined rows of the one group the detail query forms for the campaign id. */
  function Join(db: Db, campaignId: Id): seq<JoinRow>
  {
    JoinFor(OptionColumn(db, campaignId), Block(db, campaignId))
  }

  // ---------------------------------------------------------------------------
  // getFromId: aggregates
  // ---------------------------------------------------------------------------

  datatype Column = MinColumn | MaxColumn

  function Field(o: OptionRow, col: Column): int
  {
    match col
    case MinColumn => o.minParticipants
    case MaxColumn => o.maxParticipants
  }

  /** The non-NULL values of a column added up. */
  function SumField(rows: seq<JoinRow>, col: Column): int
  {
    if |rows| == 0 then 0
    else (if rows[0].option.Some? then Field(rows[0].option.value, col) else 0) + SumField(rows[1..], col)
  }

  predicate HasOption(rows: seq<JoinRow>)
  {
    exists i :: 0 <= i < |rows| && rows[i].option.Some?
  }

  /** SQL `SUM`: NULL when every value is NULL. */
  function SqlSum(rows: seq<JoinRow>, col: Column): Option<int>
  {
    if HasOption(rows) then Some(SumField(rows, col)) else None
  }

  /** The distinct participant ids of the joined rows, NULLs left out; its size is the participant count. */
  function ParticipantIdsIn(rows: seq<JoinRow>): set<Id>
  {
    if |rows| == 0 then {}
    else (if rows[0].participant.Some? then {rows[0].participant.value.id} else {}) + ParticipantIdsIn(rows[1..])
  }

  /** The distinct participant ids carried by wish rows among the joined rows; its size is the wish-ranking count. */
  function WisherIdsIn(rows: seq<JoinRow>): set<Id>
  {
    if |rows| == 0 then {}
    else (if rows[0].wish.Some? then {rows[0].wish.value.participantId} else {}) + WisherIdsIn(rows[1..])
  }

  /** What `getFromId` returns. */
  datatype Detail = Detail(name: string, start: int, end: int, status: CampaignStatus,
                           minParticipants: Option<int>, maxParticipants: Option<int>,
                           participants: nat, wishRankings: nat)

  /** `getFromId(id)`: throws when no campaign row has that id. */
  function GetFromId(db: Db, id: Id, now: int): (r: Result<Detail>)
    ensures r.Failure? <==> forall i :: 0 <= i < |db.campaigns| ==> db.campaigns[i].id != id
    ensures r.Failure? ==> r.error == CampaignNotFound
    ensures r.Success? ==> exists i :: 0 <= i < |db.campaigns| && db.campaigns[i].id == id &&
                                       r.value.name == db.campaigns[i].name &&
                                       r.value.start == db.campaigns[i].start && r.value.end == db.campaigns[i].end
    ensures r.Success? ==> r.value.status == StatusAt(now, r.value.start, r.value.end)
  {
    match FindCampaign(db, id)
    case None => Failure(CampaignNotFound)
    case Some(c) =>
      var rows := Join(db, id);
      Success(Detail(c.name, c.start, c.end, StatusAt(now, c.start, c.end),
                     SqlSum(rows, MinColumn), SqlSum(rows, MaxColumn),
                     |ParticipantIdsIn(rows)|, |WisherIdsIn(rows)|))
  }

  // ---------------------------------------------------------------------------
  // getFromId: what the aggregates amount to
  // ---------------------------------------------------------------------------

  /** The column summed over the campaign's options, each counted once. */
  function TotalOf(opts: seq<OptionRow>, col: Column): int
  {
    if |opts| == 0 then 0 else Field(opts[0], col) + TotalOf(opts[1..], col)
  }

  lemma {:induction false} SumFieldConcat(a: seq<JoinRow>, b: seq<JoinRow>, col: Column)
    ensures SumField(a + b, col) == SumField(a, col) + SumField(b, col)
  {
    if |a| == 0 {
      assert a + b == b;
    } else {
      assert (a + b)[1..] == a[1..] + b;
      SumFieldConcat(a[1..], b, col);
    }
  }

  lemma {:induction false} CopySum(o: OptionRow, block: seq<Tail>, col: Column)
    ensures SumField(Copy(Some(o), block), col) == |block| * Field(o, col)
  {
    if |block| > 0 {
      CopySum(o, block[1..], col);
      assert Copy(Some(o), block)[1..] == Copy(Some(o), block[1..]);
      assert |block| * Field(o, col) == Field(o, col) + (|block| - 1) * Field(o, col);
    }
  }

  lemma {:induction false} JoinSum(opts: seq<OptionRow>, block: seq<Tail>, col: Column)
    ensures SumField(JoinFor(Somes(opts), block), col) == |block| * TotalOf(opts, col)
  {
    if |opts| > 0 {
      assert Somes(opts)[1..] == Somes(opts[1..]);
      SumFieldConcat(Copy(Some(opts[0]), block), JoinFor(Somes(opts[1..]), block), col);
      CopySum(opts[0], block, col);
      JoinSum(opts[1..], block, col);
      assert |block| * TotalOf(opts, col) == |block| * Field(opts[0], col) + |block| * TotalOf(opts[1..], col);
    }
  }

  lemma HasOptionOfJoin(db: Db, campaignId: Id)
    ensures HasOption(Join(db, campaignId)) <==> |OptionsOf(db, campaignId)| > 0
  {
    var rows := Join(db, campaignId);
    var block := Block(db, campaignId);
    var opts := OptionsOf(db, campaignId);
    if |opts| > 0 {
      assert rows[0] == Copy(Some(opts[0]), block)[0];
    } else {
      assert JoinFor([None], block) == Copy(None, block) + JoinFor([], block);
      CopyNoOption(block);
    }
  }

  lemma {:induction false} CopyNoOption(block: seq<Tail>)
    ensures forall i :: 0 <= i < |block| ==> Copy(None, block)[i].option.None?
  {
    if |block| > 0 {
      CopyNoOption(block[1..]);
      assert forall i :: 1 <= i < |block| ==> Copy(None, block)[i] == Copy(None, block[1..])[i - 1];
    }
  }

  /** The sums of `getFromId` count each option once per joined participant/wish row: every option
      is weighted by the size of the participant/wish block, and the sums are NULL without options. */
  lemma SumsAreWeighted(db: Db, id: Id, now: int)
    requires GetFromId(db, id, now).Success?
    ensures var d := GetFromId(db, id, now).value;
            var opts := OptionsOf(db, id);
            var weight := |Block(db, id)|;
            && weight >= 1
            && d.minParticipants == (if |opts| == 0 then None else Some(weight * TotalOf(opts, MinColumn)))
            && d.maxParticipants == (if |opts| == 0 then None else Some(weight * TotalOf(opts, MaxColumn)))
  {
    HasOptionOfJoin(db, id);
    var opts := OptionsOf(db, id);
    if |opts| > 0 {
      JoinSum(opts, Block(db, id), MinColumn);
      JoinSum(opts, Block(db, id), MaxColumn);
    }
  }

  /** With no participant in the campaign the sums are the plain sums over its options. */
  lemma SumsWithoutParticipants(db: Db, id: Id, now: int)
    requires GetFromId(db, id, now).Success?
    requires ParticipantsOf(db, id) == []
    requires OptionsOf(db, id) != []
    ensures GetFromId(db, id, now).value.minParticipants == Some(TotalOf(OptionsOf(db, id), MinColumn))
    ensures GetFromId(db, id, now).value.maxParticipants == Some(TotalOf(OptionsOf(db, id), MaxColumn))
  {
    SumsAreWeighted(db, id, now);
  }

  /** The size of the participant/wish block: one row per wish, one for a participant without any. */
  function Weight(ps: seq<Participant>, wishes: seq<Wish>): nat
  {
    if |ps| == 0 then 0
    else (if |WishesOf(wishes, ps[0].id)| == 0 then 1 else |WishesOf(wishes, ps[0].id)|) + Weight(ps[1..], wishes)
  }

  lemma {:induction false} TailsSize(ps: seq<Participant>, wishes: seq<Wish>)
    ensures |Tails(ps, wishes)| == Weight(ps, wishes)
  {
    if |ps| > 0 {
      TailsSize(ps[1..], wishes);
    }
  }

  /** The weight of every option in the sums, stated over the tables: each participant contributes
      its number of wish rows, or one when it has none, and an empty campaign weighs one. */
  lemma BlockWeight(db: Db, id: Id)
    ensures |Block(db, id)| == if ParticipantsOf(db, id) == [] then 1 else Weight(ParticipantsOf(db, id), db.wishes)
  {
    TailsSize(ParticipantsOf(db, id), db.wishes);
  }

  /** Participants with at least one wish row. */
  function Wishers(ps: seq<Participant>, wishes: seq<Wish>): (ids: set<Id>)
    ensures ids <= IdsOf(ps)
  {
    if |ps| == 0 then {}
    else (if |WishesOf(wishes, ps[0].id)| > 0 then {ps[0].id} else {}) + Wishers(ps[1..], wishes)
  }

  lemma {:induction false} ParticipantIdsConcat(a: seq<JoinRow>, b: seq<JoinRow>)
    ensures ParticipantIdsIn(a + b) == ParticipantIdsIn(a) + ParticipantIdsIn(b)
    ensures WisherIdsIn(a + b) == WisherIdsIn(a) + WisherIdsIn(b)
  {
    if |a| == 0 {
      assert a + b == b;
    } else {
      assert (a + b)[1..] == a[1..] + b;
      ParticipantIdsConcat(a[1..], b);
    }
  }

  function TailIds(block: seq<Tail>): set<Id>
  {
    if |block| == 0 then {}
    else (if block[0].participant.Some? then {block[0].participant.value.id} else {}) + TailIds(block[1..])
  }

  function TailWishers(block: seq<Tail>): set<Id>
  {
    if |block| == 0 then {}
    else (if block[0].wish.Some? then {block[0].wish.value.participantId} else {}) + TailWishers(block[1..])
  }

  lemma {:induction false} CopyIds(o: Option<OptionRow>, block: seq<Tail>)
    ensures ParticipantIdsIn(Copy(o, block)) == TailIds(block)
    ensures WisherIdsIn(Copy(o, block)) == TailWishers(block)
  {
    if |block| > 0 {
      CopyIds(o, block[1..]);
      assert Copy(o, block)[1..] == Copy(o, block[1..]);
    }
  }

  /** Every option copy of the block carries the same participants, so the distinct counts are
      those of one copy. */
  lemma {:induction false} JoinIds(column: seq<Option<OptionRow>>, block: seq<Tail>)
    requires |column| >= 1
    ensures ParticipantIdsIn(JoinFor(column, block)) == TailIds(block)
    ensures WisherIdsIn(JoinFor(column, block)) == TailWishers(block)
  {
    ParticipantIdsConcat(Copy(column[0], block), JoinFor(column[1..], block));
    CopyIds(column[0], block);
    if |column| > 1 {
      JoinIds(column[1..], block);
    } else {
      assert JoinFor(column[1..], block) == [];
    }
  }

  lemma {:induction false} TailIdsConcat(a: seq<Tail>, b: seq<Tail>)
    ensures TailIds(a + b) == TailIds(a) + TailIds(b)
    ensures TailWishers(a + b) == TailWishers(a) + TailWishers(b)
  {
    if |a| == 0 {
      assert a + b == b;
    } else {
      assert (a + b)[1..] == a[1..] + b;
      TailIdsConcat(a[1..], b);
    }
  }

  lemma {:induction false} WishTailOfIds(p: Participant, ws: seq<Wish>)
    requires forall i :: 0 <= i < |ws| ==> ws[i].participantId == p.id
    ensures TailIds(WishTailOf(p, ws)) == if |ws| == 0 then {} else {p.id}
    ensures TailWishers(WishTailOf(p, ws)) == if |ws| == 0 then {} else {p.id}
  {
    if |ws| > 0 {
      WishTailOfIds(p, ws[1..]);
    }
  }

  lemma {:induction false} TailsIds(ps: seq<Participant>, wishes: seq<Wish>)
    ensures TailIds(Tails(ps, wishes)) == IdsOf(ps)
    ensures TailWishers(Tails(ps, wishes)) == Wishers(ps, wishes)
  {
    if |ps| > 0 {
      TailIdsConcat(WishTail(ps[0], wishes), Tails(ps[1..], wishes));
      TailsIds(ps[1..], wishes);
      WishTailOfIds(ps[0], WishesOf(wishes, ps[0].id));
    }
  }

  /** `participants` counts the campaign's distinct participants, `wishRankings` those of them with a
      wish row, so `wishRankings` never exceeds `participants`. */
  lemma CountsOfDetail(db: Db, id: Id, now: int)
    requires GetFromId(db, id, now).Success?
    ensures var d := GetFromId(db, id, now).value;
            && d.participants == |IdsOf(ParticipantsOf(db, id))|
            && d.wishRankings == |Wishers(ParticipantsOf(db, id), db.wishes)|
            && d.wishRankings <= d.participants
  {
    DetailCounts(db, id, now);
    BlockIds(db, id);
    JoinIds(OptionColumn(db, id), Block(db, id));
    var a, b := Wishers(ParticipantsOf(db, id), db.wishes), IdsOf(ParticipantsOf(db, id));
    assert b == a + (b - a);
  }

  /** The two counts of the detail are the distinct ids of the joined rows. */
  lemma DetailCounts(db: Db, id: Id, now: int)
    requires GetFromId(db, id, now).Success?
    ensures GetFromId(db, id, now).value.participants == |ParticipantIdsIn(Join(db, id))|
    ensures GetFromId(db, id, now).value.wishRankings == |WisherIdsIn(Join(db, id))|
  {
    assert FindCampaign(db, id).Some?;
  }

  /** The ids the block carries are the campaign's participants and those of them with wishes. */
  lemma BlockIds(db: Db, id: Id)
    ensures TailIds(Block(db, id)) == IdsOf(ParticipantsOf(db, id))
    ensures TailWishers(Block(db, id)) == Wishers(ParticipantsOf(db, id), db.wishes)
  {
    var ps := ParticipantsOf(db, id);
    if |ps| > 0 {
      TailsIds(ps, db.wishes);
    } else {
      assert TailIds([Tail(None, None)]) == {};
      assert TailWishers([Tail(None, None)]) == {};
    }
  }

  /** The listing and the detail query agree on the number of participants of a campaign. */
  lemma GetAllAgreesWithGetFromId(db: Db, userId: Id, now: int, k: nat)
    requires k < |GetAll(db, userId, now)|
    ensures GetFromId(db, GetAll(db, userId, now)[k].id, now).Success?
    ensures GetFromId(db, GetAll(db, userId, now)[k].id, now).value.participants == GetAll(db, userId, now)[k].participants
  {
    var cs := CreatedBy(db, userId);
    assert cs[k] in db.campaigns;
    CountsOfDetail(db, cs[k].id, now);
  }

  /** Two options {min 1, max 3} and {min 2, max 5} and no participant: the sums are 3 and 8. */
  lemma SumsExample()
    ensures GetFromId(TripDb(), "c", 5).Success?
    ensures GetFromId(TripDb(), "c", 5).value.minParticipants == Some(3)
    ensures GetFromId(TripDb(), "c", 5).value.maxParticipants == Some(8)
    ensures GetFromId(TripDb(), "c", 5).value.status == Active
  {
    TripDbRows();
    TripDbTotals();
    SumsWithoutParticipants(TripDb(), "c", 5);
  }

  lemma TripDbTotals()
    ensures TotalOf(TripDb().options, MinColumn) == 3 && TotalOf(TripDb().options, MaxColumn) == 8
  {
    var opts := TripDb().options;
    assert opts[1..][1..] == [];
  }

  /** Campaign "c" running from 0 to 10 with the options {min 1, max 3} and {min 2, max 5}. */
  function TripDb(): Db
  {
    Db([Campaign("c", "Trip", "u", 0, 10)],
       [OptionRow("o1", "c", "A", 1, 3), OptionRow("o2", "c", "B", 2, 5)], [], [])
  }

  /** The same campaign with participant "p", who ranked both options. */
  function TripDbWithWishes(): Db
  {
    TripDb().(participants := [Participant("p", "c", "Ann")],
              wishes := [Wish("p", "o1", 1), Wish("p", "o2", 2)])
  }

  lemma TripDbRows()
    ensures OptionsOf(TripDb(), "c") == TripDb().options && ParticipantsOf(TripDb(), "c") == []
    ensures FindCampaign(TripDb(), "c") == Some(TripDb().campaigns[0])
    ensures FindCampaign(TripDbWithWishes(), "c") == Some(TripDb().campaigns[0])
    ensures OptionsOf(TripDbWithWishes(), "c") == TripDb().options
    ensures ParticipantsOf(TripDbWithWishes(), "c") == TripDbWithWishes().participants
    ensures WishesOf(TripDbWithWishes().wishes, "p") == TripDbWithWishes().wishes
  {
  }

  lemma TripDbWeight()
    ensures Weight(ParticipantsOf(TripDbWithWishes(), "c"), TripDbWithWishes().wishes) == 2
  {
    TripDbRows();
    var db := TripDbWithWishes();
    assert Weight(db.participants[1..], db.wishes) == 0;
  }

  /** The same options with one participant holding two wish rows: the block has two rows, so each
      option is counted twice and the sums double to 6 and 16. */
  lemma WeightedSumsExample()
    ensures GetFromId(TripDbWithWishes(), "c", 5).Success?
    ensures GetFromId(TripDbWithWishes(), "c", 5).value.minParticipants == Some(6)
    ensures GetFromId(TripDbWithWishes(), "c", 5).value.maxParticipants == Some(16)
  {
    var db := TripDbWithWishes();
    TripDbRows();
    BlockWeight(db, "c");
    TripDbWeight();
    assert db.campaigns[0].id == "c";
    SumsAreWeighted(db, "c", 5);
  }

  // ---------------------------------------------------------------------------
  // add / edit / delete
  // ---------------------------------------------------------------------------

  /** `add(campaignData)`; `freshId` stands for the random id. */
  function Add(db: Db, freshId: Id, name: string, creatorId: Id, start: int, end: int): Db
    requires FindCampaign(db, freshId).None?
  {
    db.(campaigns := db.campaigns + [Campaign(freshId, name, creatorId, start, end)])
  }

  /** A new campaign is found by its id with the given fields, is listed last for its creator, and
      keeps the keys valid. */
  lemma AddEffect(db: Db, freshId: Id, name: string, creatorId: Id, start: int, end: int, now: int)
    requires FindCampaign(db, freshId).None?
    ensures var db' := Add(db, freshId, name, creatorId, start, end);
            && GetFromId(db', freshId, now).Success?
            && GetFromId(db', freshId, now).value.name == name
            && GetFromId(db', freshId, now).value.start == start
            && GetFromId(db', freshId, now).value.end == end
            && CreatedBy(db', creatorId) == CreatedBy(db, creatorId) + [Campaign(freshId, name, creatorId, start, end)]
            && (forall u :: u != creatorId ==> CreatedBy(db', u) == CreatedBy(db, u))
            && (Valid(db) ==> Valid(db'))
  {
    AddFinds(db, freshId, name, creatorId, start, end);
    AddListing(db, freshId, name, creatorId, start, end);
    if Valid(db) {
      UniqueAfterInsert((x: Campaign) => x.id, db.campaigns, Campaign(freshId, name, creatorId, start, end));
    }
  }

  lemma AddFinds(db: Db, freshId: Id, name: string, creatorId: Id, start: int, end: int)
    requires FindCampaign(db, freshId).None?
    ensures FindCampaign(Add(db, freshId, name, creatorId, start, end), freshId) == Some(Campaign(freshId, name, creatorId, start, end))
  {
    var db' := Add(db, freshId, name, creatorId, start, end);
    var c := Campaign(freshId, name, creatorId, start, end);
    var f := (x: Campaign) => x.id == freshId;
    assert forall i :: 0 <= i < |db.campaigns| ==> db'.campaigns[i] == db.campaigns[i];
    assert FirstIndex(f, db'.campaigns) == |db.campaigns| by {
      var i := FirstIndex(f, db'.campaigns);
      assert db'.campaigns[|db.campaigns|] == c;
    }
  }

  lemma AddListing(db: Db, freshId: Id, name: string, creatorId: Id, start: int, end: int)
    requires FindCampaign(db, freshId).None?
    ensures var db' := Add(db, freshId, name, creatorId, start, end);
            && CreatedBy(db', creatorId) == CreatedBy(db, creatorId) + [Campaign(freshId, name, creatorId, start, end)]
            && (forall u :: u != creatorId ==> CreatedBy(db', u) == CreatedBy(db, u))
  {
    var db' := Add(db, freshId, name, creatorId, start, end);
    var c := Campaign(freshId, name, creatorId, start, end);
    FilterConcat((x: Campaign) => x.creatorId == creatorId, db.campaigns, [c]);
    forall u | u != creatorId ensures CreatedBy(db', u) == CreatedBy(db, u) {
      FilterConcat((x: Campaign) => x.creatorId == u, db.campaigns, [c]);
      FilterNone((x: Campaign) => x.creatorId == u, [c]);
      assert CreatedBy(db, u) + [] == CreatedBy(db, u);
    }
  }

  /** Every campaign row with that id takes the new name and bounds; the other rows stay as they are. */
  function Edit(db: Db, id: Id, name: string, start: int, end: int): Db
  {
    db.(campaigns := seq(|db.campaigns|, i requires 0 <= i < |db.campaigns| =>
                       if db.campaigns[i].id == id then db.campaigns[i].(name := name, start := start, end := end)
                       else db.campaigns[i]))
  }

  /** `edit` rewrites name and bounds of the rows with that id only: ids and creators stay, the
      other tables stay, a missing id changes nothing, and the keys stay valid. */
  lemma EditEffect(db: Db, id: Id, name: string, start: int, end: int)
    ensures var db' := Edit(db, id, name, start, end);
            && db'.options == db.options && db'.participants == db.participants && db'.wishes == db.wishes
            && |db'.campaigns| == |db.campaigns|
            && (forall i :: 0 <= i < |db.campaigns| ==>
                  db'.campaigns[i].id == db.campaigns[i].id && db'.campaigns[i].creatorId == db.campaigns[i].creatorId)
            && (forall i :: 0 <= i < |db.campaigns| && db.campaigns[i].id == id ==>
                  db'.campaigns[i].name == name && db'.campaigns[i].start == start && db'.campaigns[i].end == end)
            && (forall i :: 0 <= i < |db.campaigns| && db.campaigns[i].id != id ==> db'.campaigns[i] == db.campaigns[i])
            && (FindCampaign(db, id).None? ==> db' == db)
            && (Valid(db) ==> Valid(db'))
  {
    var db' := Edit(db, id, name, start, end);
    if Valid(db) {
      UniqueAfterUpdate((c: Campaign) => c.id, db.campaigns, db'.campaigns);
    }
  }

  /** After an edit of an existing campaign, the detail query shows the new name and bounds and the
      status they give at `now`. */
  lemma EditThenGet(db: Db, id: Id, name: string, start: int, end: int, now: int)
    requires FindCampaign(db, id).Some?
    ensures var d := GetFromId(Edit(db, id, name, start, end), id, now);
            && d.Success?
            && d.value.name == name && d.value.start == start && d.value.end == end
            && d.value.status == StatusAt(now, start, end)
  {
    var db' := Edit(db, id, name, start, end);
    var f := (c: Campaign) => c.id == id;
    assert forall i :: 0 <= i < |db.campaigns| ==> f(db.campaigns[i]) == f(db'.campaigns[i]);
    FirstIndexSame(f, db.campaigns, db'.campaigns);
  }

  /** `delete(campaignId)`: its options, its participants, then its row. Wish rows are not touched. */
  function Delete(db: Db, campaignId: Id): Db
  {
    db.(options := Filter((o: OptionRow) => o.campaignId != campaignId, db.options),
        participants := Filter((p: Participant) => p.campaignId != campaignId, db.participants),
        campaigns := Filter((c: Campaign) => c.id != campaignId, db.campaigns))
  }

  /** The delete removes the campaign row and every option and participant of the campaign, keeps
      every other row, leaves the wish rows as they were, and keeps the store valid; afterwards the
      detail query throws. */
  lemma DeleteEffect(db: Db, campaignId: Id, now: int)
    ensures var db' := Delete(db, campaignId);
            && db'.wishes == db.wishes
            && GetFromId(db', campaignId, now) == Failure(CampaignNotFound)
            && OptionsOf(db', campaignId) == [] && ParticipantsOf(db', campaignId) == []
            && (forall i :: 0 <= i < |db.campaigns| && db.campaigns[i].id != campaignId ==> db.campaigns[i] in db'.campaigns)
            && (forall i :: 0 <= i < |db.options| && db.options[i].campaignId != campaignId ==> db.options[i] in db'.options)
            && (forall i :: 0 <= i < |db.participants| && db.participants[i].campaignId != campaignId ==>
                  db.participants[i] in db'.participants)
            && (forall i :: 0 <= i < |db'.options| ==> db'.options[i] in db.options)
            && (forall i :: 0 <= i < |db'.participants| ==> db'.participants[i] in db.participants)
            && (Valid(db) ==> Valid(db'))
  {
    DeleteClears(db, campaignId, now);
    if Valid(db) {
      DeleteValid(db, campaignId);
    }
  }

  lemma DeleteClears(db: Db, campaignId: Id, now: int)
    ensures GetFromId(Delete(db, campaignId), campaignId, now) == Failure(CampaignNotFound)
    ensures OptionsOf(Delete(db, campaignId), campaignId) == []
    ensures ParticipantsOf(Delete(db, campaignId), campaignId) == []
  {
    var db' := Delete(db, campaignId);
    FilterNone((o: OptionRow) => o.campaignId == campaignId, db'.options);
    FilterNone((p: Participant) => p.campaignId == campaignId, db'.participants);
  }

  /** Removing rows keeps every id unique and every option well formed. */
  lemma DeleteValid(db: Db, campaignId: Id)
    requires Valid(db)
    ensures Valid(Delete(db, campaignId))
  {
    var db' := Delete(db, campaignId);
    FilterKeepsUnique((c: Campaign) => c.id, (c: Campaign) => c.id != campaignId, db.campaigns);
    FilterKeepsUnique((o: OptionRow) => o.id, (o: OptionRow) => o.campaignId != campaignId, db.options);
    FilterKeepsUnique((p: Participant) => p.id, (p: Participant) => p.campaignId != campaignId, db.participants);
    forall i | 0 <= i < |db'.options|
      ensures OptionFieldsOk(db'.options[i].name, db'.options[i].minParticipants, db'.options[i].maxParticipants)
    {
      var j :| 0 <= j < |db.options| && db.options[j] == db'.options[i];
    }
  }

  /** Because the wish rows stay, a wish of a participant of the deleted campaign outlives its participant. */
  lemma DeleteLeavesOrphanWish(db: Db, campaignId: Id, i: nat, w: Wish)
    requires Valid(db)
    requires i < |db.participants| && db.participants[i].campaignId == campaignId
    requires w in db.wishes && w.participantId == db.participants[i].id
    ensures w in Delete(db, campaignId).wishes
    ensures FindParticipant(Delete(db, campaignId), w.participantId).None?
  {
    var db' := Delete(db, campaignId);
    forall j | 0 <= j < |db'.participants| ensures db'.participants[j].id != w.participantId {
      var m :| 0 <= m < |db.participants| && db.participants[m] == db'.participants[j];
    }
  }
}

=== FILE: options.dfy ===
/**
  `Options` of the model layer: adding an option to a campaign, listing and
  looking up options, overwriting an option's fields, and the delete cascade
  over wish rows.
*/
module Options {
  import opened Wrappers
  import opened Store
  import opened Ranking
  import Participants

  /** The object `add` returns. */
  datatype Added = Added(optionId: Id, name: string, minParticipants: int, maxParticipants: int)

  /** The first option row with that id, if any. */
  function FindOption(db: Db, id: Id): Option<OptionRow>
  {
    First((o: OptionRow) => o.id == id, db.options)
  }

  // ---------------------------------------------------------------------------
  // add
  // ---------------------------------------------------------------------------

  /** `add` as it stands: the id is drawn from `Campaigns.generateRandomId`, but this module never
      imports `Campaigns`, so that read throws before any query and the transaction rolls back. */
  function AddAsShipped(db: Db, campaignId: Id, name: string, minParticipants: int, maxParticipants: int): (t: Txn<Added>)
    ensures t.result.Failure?
    ensures t.db.options == db.options
  {
    Txn(db, Failure(ReferenceError))
  }

  /** `add` with the id generator reachable; `freshId` stands for the random id. */
  function Add(db: Db, freshId: Id, campaignId: Id, name: string, minParticipants: int, maxParticipants: int): (t: Txn<Added>)
    requires FindOption(db, freshId).None?
    ensures t.result.Success?
  {
    Txn(db.(options := db.options + [OptionRow(freshId, campaignId, name, minParticipants, maxParticipants)]),
        Success(Added(freshId, name, minParticipants, maxParticipants)))
  }

  /** Whatever its arguments, the shipped `add` adds nothing and throws, where the intended one succeeds. */
  lemma AddAsShippedNeverAdds(db: Db, freshId: Id, campaignId: Id, name: string, minParticipants: int, maxParticipants: int)
    requires FindOption(db, freshId).None?
    ensures var shipped := AddAsShipped(db, campaignId, name, minParticipants, maxParticipants);
            && shipped == Txn(db, Failure(ReferenceError))
            && GetAll(shipped.db, Some(campaignId)) == GetAll(db, Some(campaignId))
            && Add(db, freshId, campaignId, name, minParticipants, maxParticipants).result.Success?
            && Add(db, freshId, campaignId, name, minParticipants, maxParticipants).db != shipped.db
  {
    var t := Add(db, freshId, campaignId, name, minParticipants, maxParticipants);
    assert |t.db.options| == |db.options| + 1;
  }

  /** The intended `add` echoes its fields under the new id, makes the option the last one of its
      campaign and findable by its id, leaves other campaigns' options as they were, and keeps the
      store valid when the fields satisfy the option schema. */
  lemma AddEffect(db: Db, freshId: Id, campaignId: Id, name: string, minParticipants: int, maxParticipants: int)
    requires FindOption(db, freshId).None?
    ensures var t := Add(db, freshId, campaignId, name, minParticipants, maxParticipants);
            var row := OptionRow(freshId, campaignId, name, minParticipants, maxParticipants);
            && t.result == Success(Added(freshId, name, minParticipants, maxParticipants))
            && GetAll(t.db, Some(campaignId)) == (if campaignId == "" then None else Some(OptionsOf(db, campaignId) + [row]))
            && (forall c :: c != campaignId ==> GetAll(t.db, Some(c)) == GetAll(db, Some(c)))
            && GetFromId(t.db, freshId) == Some(row)
            && t.db.campaigns == db.campaigns && t.db.participants == db.participants && t.db.wishes == db.wishes
            && (Valid(db) && OptionFieldsOk(name, minParticipants, maxParticipants) ==> Valid(t.db))
  {
    var t := Add(db, freshId, campaignId, name, minParticipants, maxParticipants);
    var row := OptionRow(freshId, campaignId, name, minParticipants, maxParticipants);
    OptionsOfAppend(db, row, campaignId);
    forall c | c != campaignId ensures GetAll(t.db, Some(c)) == GetAll(db, Some(c)) {
      OptionsOfAppend(db, row, c);
      assert OptionsOf(db, c) + [] == OptionsOf(db, c);
    }
    Participants.FirstIndexAppend((o: OptionRow) => o.id == freshId, db.options, row);
    assert GetFromId(t.db, freshId) == Some(row);
    if Valid(db) && OptionFieldsOk(name, minParticipants, maxParticipants) {
      UniqueAfterInsert((o: OptionRow) => o.id, db.options, row);
      assert t.db.options[|db.options|] == row;
    }
  }

  // ---------------------------------------------------------------------------
  // getAll / getFromId
  // ---------------------------------------------------------------------------

  /** A falsy `campaignId` (absent or the empty string) skips the query and returns `undefined`. */
  predicate Truthy(campaignId: Option<Id>)
  {
    campaignId.Some? && campaignId.value != ""
  }

  /** `getAll({ campaignId })`. */
  function GetAll(db: Db, campaignId: Option<Id>): (r: Option<seq<OptionRow>>)
    ensures r.None? <==> !Truthy(campaignId)
    ensures r.Some? ==> forall i :: 0 <= i < |r.value| ==> r.value[i] in db.options && r.value[i].campaignId == campaignId.value
    ensures r.Some? ==> forall i :: 0 <= i < |db.options| && db.options[i].campaignId == campaignId.value ==>
                          db.options[i] in r.value
  {
    if Truthy(campaignId) then Some(OptionsOf(db, campaignId.value)) else None
  }

  /** A filter keeps the relative order of the rows it keeps. */
  lemma {:induction false} FilterIsSubseq<T>(f: T -> bool, s: seq<T>)
    ensures Subseq(Filter(f, s), s)
  {
    if |s| > 0 {
      FilterIsSubseq(f, s[1..]);
      if f(s[0]) {
        assert Filter(f, s)[1..] == Filter(f, s[1..]);
      }
    }
  }

  /** `getAll` lists the campaign's options in store order. */
  lemma GetAllInStoreOrder(db: Db, campaignId: Id)
    requires campaignId != ""
    ensures GetAll(db, Some(campaignId)).Some? && Subseq(GetAll(db, Some(campaignId)).value, db.options)
  {
    FilterIsSubseq((o: OptionRow) => o.campaignId == campaignId, db.options);
  }

  /** `getFromId(optionId)`: the first row with that id, or `undefined`. */
  function GetFromId(db: Db, optionId: Id): (r: Option<OptionRow>)
    ensures r.None? <==> forall i :: 0 <= i < |db.options| ==> db.options[i].id != optionId
    ensures r.Some? ==> r.value in db.options && r.value.id == optionId
  {
    FindOption(db, optionId)
  }

  /** In a valid store the row `getFromId` returns is the only one with that id. */
  lemma GetFromIdUnique(db: Db, optionId: Id)
    requires Valid(db)
    ensures GetFromId(db, optionId).Some? ==>
              forall i :: 0 <= i < |db.options| && db.options[i].id == optionId ==> db.options[i] == GetFromId(db, optionId).value
  {
    if GetFromId(db, optionId).Some? {
      var k := FirstIndex((o: OptionRow) => o.id == optionId, db.options);
      forall i | 0 <= i < |db.options| && db.options[i].id == optionId
        ensures db.options[i] == GetFromId(db, optionId).value
      {
        assert ((o: OptionRow) => o.id)(db.options[i]) == ((o: OptionRow) => o.id)(db.options[k]);
      }
    }
  }

  // ---------------------------------------------------------------------------
  // edit
  // ---------------------------------------------------------------------------

  /** Every option row with that id takes the new name, minimum and maximum; the other rows stay as they are. */
  function Edit(db: Db, optionId: Id, name: string, minParticipants: int, maxParticipants: int): Db
  {
    db.(options := seq(|db.options|, i requires 0 <= i < |db.options| =>
                     if db.options[i].id == optionId
                     then db.options[i].(name := name, minParticipants := minParticipants, maxParticipants := maxParticipants)
                     else db.options[i]))
  }

  /** `edit` rewrites the three fields of the rows with that id and nothing else: ids and campaign
      ids stay, other rows and tables stay, a missing id changes nothing, and the store stays valid
      when the new fields satisfy the option schema. */
  lemma EditEffect(db: Db, optionId: Id, name: string, minParticipants: int, maxParticipants: int)
    ensures var db' := Edit(db, optionId, name, minParticipants, maxParticipants);
            && db'.campaigns == db.campaigns && db'.participants == db.participants && db'.wishes == db.wishes
            && |db'.options| == |db.options|
            && (forall i :: 0 <= i < |db.options| ==>
                  db'.options[i].id == db.options[i].id && db'.options[i].campaignId == db.options[i].campaignId)
            && (forall i :: 0 <= i < |db.options| && db.options[i].id == optionId ==>
                  db'.options[i].name == name && db'.options[i].minParticipants == minParticipants &&
                  db'.options[i].maxParticipants == maxParticipants)
            && (forall i :: 0 <= i < |db.options| && db.options[i].id != optionId ==> db'.options[i] == db.options[i])
            && (GetFromId(db, optionId).None? ==> db' == db)
            && (Valid(db) && OptionFieldsOk(name, minParticipants, maxParticipants) ==> Valid(db'))
  {
    var db' := Edit(db, optionId, name, minParticipants, maxParticipants);
    if Valid(db) {
      UniqueAfterUpdate((o: OptionRow) => o.id, db.options, db'.options);
    }
  }

  /** After an edit of an existing option, looking it up shows the new fields under the same campaign. */
  lemma EditThenGet(db: Db, optionId: Id, name: string, minParticipants: int, maxParticipants: int)
    requires GetFromId(db, optionId).Some?
    ensures GetFromId(Edit(db, optionId, name, minParticipants, maxParticipants), optionId) ==
            Some(OptionRow(optionId, GetFromId(db, optionId).value.campaignId, name, minParticipants, maxParticipants))
  {
    var db' := Edit(db, optionId, name, minParticipants, maxParticipants);
    FirstIndexSame((o: OptionRow) => o.id == optionId, db.options, db'.options);
  }

  // ---------------------------------------------------------------------------
  // delete
  // ---------------------------------------------------------------------------

  /** `delete(optionId)`: its wish rows, then the option row. */
  function Delete(db: Db, optionId: Id): Db
  {
    db.(wishes := Filter((w: Wish) => w.optionId != optionId, db.wishes),
        options := Filter((o: OptionRow) => o.id != optionId, db.options))
  }

  /** The delete cascade removes exactly the option's row and the wish rows naming it, and keeps the
      store valid. */
  lemma DeleteEffect(db: Db, optionId: Id)
    ensures var db' := Delete(db, optionId);
            && db'.campaigns == db.campaigns && db'.participants == db.participants
            && (forall i :: 0 <= i < |db'.wishes| ==> db'.wishes[i].optionId != optionId && db'.wishes[i] in db.wishes)
            && (forall i :: 0 <= i < |db.wishes| && db.wishes[i].optionId != optionId ==> db.wishes[i] in db'.wishes)
            && GetFromId(db', optionId).None?
            && (forall i :: 0 <= i < |db'.options| ==> db'.options[i] in db.options)
            && (forall i :: 0 <= i < |db.options| && db.options[i].id != optionId ==> db.options[i] in db'.options)
            && (Valid(db) ==> Valid(db'))
  {
    if Valid(db) {
      var db' := Delete(db, optionId);
      FilterKeepsUnique((o: OptionRow) => o.id, (o: OptionRow) => o.id != optionId, db.options);
      forall i | 0 <= i < |db'.options|
        ensures OptionFieldsOk(db'.options[i].name, db'.options[i].minParticipants, db'.options[i].maxParticipants)
      {
        var j :| 0 <= j < |db.options| && db.options[j] == db'.options[i];
      }
    }
  }

  /** After an option is deleted no participant's reconciled ranking mentions it. */
  lemma DeleteThenView(db: Db, optionId: Id, pid: Id)
    ensures forall k :: 0 <= k < |Participants.GetFromId(Delete(db, optionId), pid).wishRanking| ==>
              Participants.GetFromId(Delete(db, optionId), pid).wishRanking[k].id != optionId
  {
    var db' := Delete(db, optionId);
    var v := Participants.GetFromId(db', pid);
    if FindParticipant(db', pid).Some? {
      var opts := OptionsOf(db', FindParticipant(db', pid).value.campaignId);
      forall k | 0 <= k < |v.wishRanking| ensures v.wishRanking[k].id != optionId {
        var i :| 0 <= i < |opts| && Participants.Infos(opts)[i] == v.wishRanking[k];
        assert opts[i] in db'.options;
      }
    }
  }
}

=== FILE: participants.dfy ===
/**
  `Participants` of the model layer: listing, the reconciled view of one
  participant, the full-replace edit of a wish ranking, creation with a fresh
  id, and the delete cascade over wish rows.
*/
module Participants {
  import opened Wrappers
  import opened Store
  import opened Ranking
  import RankingFacts

  /** One entry of `wishRanking`: the option columns the view exposes (no rank, no campaign id). */
  datatype OptionInfo = OptionInfo(id: Id, name: string, minParticipants: int, maxParticipants: int)

  /** What `getFromId` returns; `id` and `name` are `undefined` when no participant row matched. */
  datatype View = View(id: Option<Id>, name: Option<string>, wishRanking: seq<OptionInfo>)

  function Info(o: OptionRow): OptionInfo
  {
    OptionInfo(o.id, o.name, o.minParticipants, o.maxParticipants)
  }

  function Infos(opts: seq<OptionRow>): (r: seq<OptionInfo>)
    ensures |r| == |opts|
    ensures forall i :: 0 <= i < |opts| ==> r[i] == Info(opts[i])
  {
    seq(|opts|, i requires 0 <= i < |opts| => Info(opts[i]))
  }

  // ---------------------------------------------------------------------------
  // getAll
  // ---------------------------------------------------------------------------

  /** `getAll(campaignId)`: the participants of one campaign, in table order. */
  function GetAll(db: Db, campaignId: Id): (r: seq<Participant>)
    ensures forall i :: 0 <= i < |r| ==> r[i] in db.participants && r[i].campaignId == campaignId
    ensures forall i :: 0 <= i < |db.participants| && db.participants[i].campaignId == campaignId ==>
              db.participants[i] in r
  {
    ParticipantsOf(db, campaignId)
  }

  // ---------------------------------------------------------------------------
  // getFromId
  // ---------------------------------------------------------------------------

  /** The wish rows of participant `pid` for option `o`. */
  function MatchingWishes(wishes: seq<Wish>, pid: Id, optionId: Id): seq<Wish>
  {
    Filter((w: Wish) => w.participantId == pid && w.optionId == optionId, wishes)
  }

  /** The rows the left join of the options with the participant's wishes yields for one option:
      one per matching wish, or one with a NULL rank. */
  function RowsForOption(o: OptionRow, wishes: seq<Wish>, pid: Id): (rows: seq<Row<OptionInfo>>)
    ensures |rows| >= 1
    ensures forall k :: 0 <= k < |rows| ==> rows[k].item == Info(o)
  {
    var ws := MatchingWishes(wishes, pid, o.id);
    if |ws| == 0 then [Row(Info(o), None)]
    else seq(|ws|, k requires 0 <= k < |ws| => Row(Info(o), Some(ws[k].rank)))
  }

  /** The whole left join over the campaign's options, in option-table order. */
  function JoinRows(opts: seq<OptionRow>, wishes: seq<Wish>, pid: Id): (rows: seq<Row<OptionInfo>>)
    ensures |rows| >= |opts|
    ensures forall k :: 0 <= k < |rows| ==> rows[k].item in Infos(opts)
  {
    if |opts| == 0 then []
    else
      var head, tail := RowsForOption(opts[0], wishes, pid), JoinRows(opts[1..], wishes, pid);
      assert forall k :: 0 <= k < |tail| ==> tail[k].item in Infos(opts) by {
        forall k | 0 <= k < |tail| ensures tail[k].item in Infos(opts) {
          var m :| 0 <= m < |opts| - 1 && Infos(opts[1..])[m] == tail[k].item;
          assert Infos(opts)[m + 1] == tail[k].item;
        }
      }
      assert Infos(opts)[0] == Info(opts[0]);
      head + tail
  }

  /** The rows of the wishes query: the options of the participant's campaign (none when the
      participant does not exist, as the sub-select then yields NULL) joined with its wishes. */
  function WishRows(db: Db, pid: Id): seq<Row<OptionInfo>>
  {
    match FindParticipant(db, pid)
    case None => []
    case Some(p) => JoinRows(OptionsOf(db, p.campaignId), db.wishes, pid)
  }

  /** `getFromId(participantId)`. */
  function GetFromId(db: Db, pid: Id): (v: View)
    ensures FindParticipant(db, pid).None? ==> v == View(None, None, [])
    ensures FindParticipant(db, pid).Some? ==>
              v.id == Some(pid) && v.name == Some(FindParticipant(db, pid).value.name)
    ensures FindParticipant(db, pid).Some? ==>
              forall k :: 0 <= k < |v.wishRanking| ==>
                v.wishRanking[k] in Infos(OptionsOf(db, FindParticipant(db, pid).value.campaignId))
  {
    match FindParticipant(db, pid)
    case None => View(None, None, [])
    case Some(p) =>
      var rows := WishRows(db, pid);
      RankingFacts.ReconcileDrawsFromRows(rows);
      assert forall k :: 0 <= k < |Reconcile(rows)| ==> Reconcile(rows)[k] in Infos(OptionsOf(db, p.campaignId)) by {
        forall k | 0 <= k < |Reconcile(rows)| ensures Reconcile(rows)[k] in Infos(OptionsOf(db, p.campaignId)) {
          var i :| 0 <= i < |rows| && Items(rows)[i] == Reconcile(rows)[k];
        }
      }
      View(Some(p.id), Some(p.name), Reconcile(rows))
  }

  /** The wish rows of `pid` for the options `opts` are what an edit writes: at most one per option,
      and no two of them with the same positive rank. The store itself enforces neither. */
  ghost predicate WishesWellFormed(wishes: seq<Wish>, pid: Id, opts: seq<OptionRow>)
  {
    && (forall k :: 0 <= k < |opts| ==> |MatchingWishes(wishes, pid, opts[k].id)| <= 1)
    && (forall a, b ::
          (&& 0 <= a < |wishes| && 0 <= b < |wishes|
           && wishes[a].participantId == pid && wishes[b].participantId == pid
           && wishes[a].optionId in OptionIds(opts) && wishes[b].optionId in OptionIds(opts)
           && wishes[a].rank > 0 && wishes[a].rank == wishes[b].rank)
          ==> a == b)
  }

  /** The rank the join gives option `optionId` when the participant has at most one wish for it. */
  function SingleRank(wishes: seq<Wish>, pid: Id, optionId: Id): Option<nat>
  {
    var ws := MatchingWishes(wishes, pid, optionId);
    if |ws| == 0 then None else Some(ws[0].rank)
  }

  /** With at most one wish per option, the join yields exactly one row per option, in option order. */
  lemma {:induction false} JoinRowsOnePerOption(opts: seq<OptionRow>, wishes: seq<Wish>, pid: Id)
    requires forall k :: 0 <= k < |opts| ==> |MatchingWishes(wishes, pid, opts[k].id)| <= 1
    ensures |JoinRows(opts, wishes, pid)| == |opts|
    ensures forall k :: 0 <= k < |opts| ==>
              JoinRows(opts, wishes, pid)[k] == Row(Info(opts[k]), SingleRank(wishes, pid, opts[k].id))
  {
    if |opts| > 0 {
      JoinRowsOnePerOption(opts[1..], wishes, pid);
      JoinRowsCons(opts, wishes, pid);
      assert RowsForOption(opts[0], wishes, pid) == [Row(Info(opts[0]), SingleRank(wishes, pid, opts[0].id))];
    }
  }

  /** A rank the join reads for an option comes from a wish row of the participant for that option. */
  lemma SingleRankWish(wishes: seq<Wish>, pid: Id, optionId: Id) returns (a: nat)
    requires SingleRank(wishes, pid, optionId).Some?
    ensures a < |wishes| && wishes[a].participantId == pid && wishes[a].optionId == optionId
    ensures wishes[a].rank == SingleRank(wishes, pid, optionId).value
  {
    var ws := MatchingWishes(wishes, pid, optionId);
    a :| a < |wishes| && wishes[a] == ws[0];
  }

  /** Well-formed wishes give the join rows distinct ranks. */
  lemma WellFormedDistinctRanks(opts: seq<OptionRow>, wishes: seq<Wish>, pid: Id)
    requires UniqueOptionIds(opts)
    requires WishesWellFormed(wishes, pid, opts)
    ensures DistinctRanks(JoinRows(opts, wishes, pid))
  {
    var rows := JoinRows(opts, wishes, pid);
    JoinRowsOnePerOption(opts, wishes, pid);
    forall i, j | 0 <= i < |rows| && 0 <= j < |rows| && IsRanked(rows[i]) && RankOf(rows[i]) == RankOf(rows[j])
      ensures i == j
    {
      assert rows[i].rank == SingleRank(wishes, pid, opts[i].id);
      assert rows[j].rank == SingleRank(wishes, pid, opts[j].id);
      var a := SingleRankWish(wishes, pid, opts[i].id);
      var b := SingleRankWish(wishes, pid, opts[j].id);
      SameWish(opts, wishes, pid, i, j, a, b);
    }
  }

  /** Two wish rows of the participant for options of the list with the same positive rank are
      the same row, so they name the same option and, ids being unique, the same position. */
  lemma SameWish(opts: seq<OptionRow>, wishes: seq<Wish>, pid: Id, i: nat, j: nat, a: nat, b: nat)
    requires UniqueOptionIds(opts)
    requires WishesWellFormed(wishes, pid, opts)
    requires i < |opts| && j < |opts| && a < |wishes| && b < |wishes|
    requires wishes[a].participantId == pid && wishes[a].optionId == opts[i].id
    requires wishes[b].participantId == pid && wishes[b].optionId == opts[j].id
    requires wishes[a].rank > 0 && wishes[a].rank == wishes[b].rank
    ensures i == j
  {
    assert OptionIds(opts)[i] == opts[i].id && OptionIds(opts)[j] == opts[j].id;
    assert a == b;
    assert ((o: OptionRow) => o.id)(opts[i]) == ((o: OptionRow) => o.id)(opts[j]);
  }

  /** Completeness of the view: when the participant's wish rows are well formed, its ranking lists
      every option of its campaign exactly once, and nothing else. */
  lemma GetFromIdIsPermutation(db: Db, pid: Id)
    requires Valid(db)
    requires FindParticipant(db, pid).Some?
    requires WishesWellFormed(db.wishes, pid, OptionsOf(db, FindParticipant(db, pid).value.campaignId))
    ensures var opts := OptionsOf(db, FindParticipant(db, pid).value.campaignId);
            && multiset(GetFromId(db, pid).wishRanking) == multiset(Infos(opts))
            && |GetFromId(db, pid).wishRanking| == |opts|
  {
    var p := FindParticipant(db, pid).value;
    var opts := OptionsOf(db, p.campaignId);
    var rows := WishRows(db, pid);
    OptionsOfUnique(db, p.campaignId);
    WellFormedDistinctRanks(opts, db.wishes, pid);
    RankingFacts.ReconcileIsPermutation(rows);
    JoinRowsOnePerOption(opts, db.wishes, pid);
    assert Items(rows) == Infos(opts);
  }

  // ---------------------------------------------------------------------------
  // edit
  // ---------------------------------------------------------------------------

  /** The rows the insert loop writes: the i-th listed option at rank i + 1, for this participant. */
  function NewWishes(pid: Id, ranking: seq<Id>): (ws: seq<Wish>)
    ensures |ws| == |ranking|
    ensures forall i :: 0 <= i < |ranking| ==> ws[i] == Wish(pid, ranking[i], i + 1)
  {
    seq(|ranking|, i requires 0 <= i < |ranking| => Wish(pid, ranking[i], i + 1))
  }

  /** Every participant row with that id takes the new name; the other rows stay as they are. */
  function Rename(ps: seq<Participant>, pid: Id, name: string): (r: seq<Participant>)
    ensures |r| == |ps|
    ensures forall i :: 0 <= i < |ps| ==> r[i].id == ps[i].id && r[i].campaignId == ps[i].campaignId
    ensures forall i :: 0 <= i < |ps| ==> r[i].name == (if ps[i].id == pid then name else ps[i].name)
  {
    seq(|ps|, i requires 0 <= i < |ps| => if ps[i].id == pid then ps[i].(name := name) else ps[i])
  }

  /** `edit(participant)`: overwrite the name, delete every wish row of the participant, insert one
      row per entry of `wishRanking` with rank `position + 1`. Reading `.length` of a missing
      `wishRanking` throws after the first two statements, so the transaction rolls back. */
  function Edit(db: Db, pid: Id, name: string, wishRanking: Option<seq<Id>>): (t: Txn<()>)
    ensures t.result.Failure? <==> wishRanking.None?
    ensures wishRanking.None? ==> t == Txn(db, Failure(TypeError))
  {
    match wishRanking
    case None => Txn(db, Failure(TypeError))
    case Some(ranking) =>
      var kept := Filter((w: Wish) => w.participantId != pid, db.wishes);
      Txn(db.(participants := Rename(db.participants, pid, name), wishes := kept + NewWishes(pid, ranking)),
          Success(()))
  }

  /** What a successful edit leaves: the participant's wish rows are exactly the ranking, in order,
      with ranks 1..n; every other participant's wish rows, the campaigns and the options are as
      they were; only the name of rows with that id changes; the keys stay valid. */
  lemma EditEffect(db: Db, pid: Id, name: string, ranking: seq<Id>)
    ensures var db' := Edit(db, pid, name, Some(ranking)).db;
            && db'.campaigns == db.campaigns
            && db'.options == db.options
            && WishesOf(db'.wishes, pid) == NewWishes(pid, ranking)
            && (forall q :: q != pid ==> WishesOf(db'.wishes, q) == WishesOf(db.wishes, q))
            && |db'.participants| == |db.participants|
            && (forall i :: 0 <= i < |db.participants| ==>
                  db'.participants[i] == if db.participants[i].id == pid then db.participants[i].(name := name)
                                         else db.participants[i])
            && (Valid(db) ==> Valid(db'))
  {
    var db' := Edit(db, pid, name, Some(ranking)).db;
    var kept := Filter((w: Wish) => w.participantId != pid, db.wishes);
    var added := NewWishes(pid, ranking);
    FilterConcat((w: Wish) => w.participantId == pid, kept, added);
    FilterNone((w: Wish) => w.participantId == pid, kept);
    FilterAll((w: Wish) => w.participantId == pid, added);
    forall q | q != pid ensures WishesOf(db'.wishes, q) == WishesOf(db.wishes, q) {
      FilterConcat((w: Wish) => w.participantId == q, kept, added);
      FilterNone((w: Wish) => w.participantId == q, added);
      FilterFilter((w: Wish) => w.participantId == q, (w: Wish) => w.participantId != pid, db.wishes);
    }
    if Valid(db) {
      UniqueAfterUpdate((p: Participant) => p.id, db.participants, db'.participants);
    }
  }

  /** Applying the same edit twice leaves the same store as applying it once. */
  lemma EditIdempotent(db: Db, pid: Id, name: string, ranking: seq<Id>)
    ensures var once := Edit(db, pid, name, Some(ranking)).db;
            Edit(once, pid, name, Some(ranking)).db == once
  {
    var once := Edit(db, pid, name, Some(ranking)).db;
    var twice := Edit(once, pid, name, Some(ranking)).db;
    var keep := (w: Wish) => w.participantId != pid;
    var kept := Filter(keep, db.wishes);
    var added := NewWishes(pid, ranking);
    FilterConcat(keep, kept, added);
    FilterFilter(keep, keep, db.wishes);
    FilterNone(keep, added);
    assert Filter(keep, once.wishes) == kept;
    assert twice.wishes == once.wishes;
    assert twice.participants == once.participants;
  }

  // ---------------------------------------------------------------------------
  // Edit, then view: the round trip
  // ---------------------------------------------------------------------------

  ghost predicate Distinct(ids: seq<Id>)
  {
    forall i, j :: 0 <= i < |ids| && 0 <= j < |ids| && ids[i] == ids[j] ==> i == j
  }

  /** The position of `x` in `ids`. */
  function IndexOf(ids: seq<Id>, x: Id): (k: nat)
    requires x in ids
    ensures k < |ids| && ids[k] == x
  {
    if ids[0] == x then 0 else 1 + IndexOf(ids[1..], x)
  }

  /** The rank an edit with `ranking` gives the option `x`, if any. */
  function RankIn(ranking: seq<Id>, x: Id): Option<nat>
  {
    if x in ranking then Some(IndexOf(ranking, x) + 1) else None
  }

  /** The join rows after an edit: one row per option, ranked by its position in the list. */
  function EditedRows(opts: seq<OptionRow>, ranking: seq<Id>): (rows: seq<Row<OptionInfo>>)
    ensures |rows| == |opts|
    ensures forall i :: 0 <= i < |opts| ==> rows[i] == Row(Info(opts[i]), RankIn(ranking, opts[i].id))
  {
    seq(|opts|, i requires 0 <= i < |opts| => Row(Info(opts[i]), RankIn(ranking, opts[i].id)))
  }

  /** The options an edit leaves unranked, in table order. */
  function OptionsNotIn(opts: seq<OptionRow>, ranking: seq<Id>): seq<OptionRow>
  {
    Filter((o: OptionRow) => o.id !in ranking, opts)
  }

  lemma NewWishesMatching(pid: Id, ranking: seq<Id>, x: Id)
    requires Distinct(ranking)
    ensures MatchingWishes(NewWishes(pid, ranking), pid, x) ==
            (if x in ranking then [Wish(pid, x, IndexOf(ranking, x) + 1)] else [])
  {
    var ws := NewWishes(pid, ranking);
    if x in ranking {
      var k := IndexOf(ranking, x);
      forall i | 0 <= i < |ws| && i != k ensures ws[i].optionId != x {
        assert ws[i].optionId == ranking[i] && ranking[k] == x;
      }
      MatchingOnlyAt(ws, pid, x, k);
    } else {
      FilterNone((w: Wish) => w.participantId == pid && w.optionId == x, ws);
    }
  }

  /** When exactly one wish row matches, the matching rows are that row. */
  lemma MatchingOnlyAt(ws: seq<Wish>, pid: Id, x: Id, k: nat)
    requires k < |ws| && ws[k].participantId == pid && ws[k].optionId == x
    requires forall i :: 0 <= i < |ws| && i != k ==> ws[i].optionId != x
    ensures MatchingWishes(ws, pid, x) == [ws[k]]
  {
    var f := (w: Wish) => w.participantId == pid && w.optionId == x;
    assert ws == ws[..k] + [ws[k]] + ws[k + 1..];
    FilterConcat(f, ws[..k] + [ws[k]], ws[k + 1..]);
    FilterConcat(f, ws[..k], [ws[k]]);
    FilterNone(f, ws[..k]);
    FilterNone(f, ws[k + 1..]);
  }

  lemma RowsForOptionAfterEdit(o: OptionRow, kept: seq<Wish>, pid: Id, ranking: seq<Id>)
    requires Distinct(ranking)
    requires forall i :: 0 <= i < |kept| ==> kept[i].participantId != pid
    ensures RowsForOption(o, kept + NewWishes(pid, ranking), pid) == [Row(Info(o), RankIn(ranking, o.id))]
  {
    var f := (w: Wish) => w.participantId == pid && w.optionId == o.id;
    FilterConcat(f, kept, NewWishes(pid, ranking));
    FilterNone(f, kept);
    NewWishesMatching(pid, ranking, o.id);
    assert MatchingWishes(kept + NewWishes(pid, ranking), pid, o.id) == MatchingWishes(NewWishes(pid, ranking), pid, o.id);
  }

  /** An edit with a list of distinct ids leaves the participant's wish rows well formed, whatever
      they were before, so the completeness of the view applies after every such edit. */
  lemma EditWishesWellFormed(db: Db, pid: Id, name: string, ranking: seq<Id>, opts: seq<OptionRow>)
    requires Distinct(ranking)
    ensures WishesWellFormed(Edit(db, pid, name, Some(ranking)).db.wishes, pid, opts)
  {
    var kept := Filter((w: Wish) => w.participantId != pid, db.wishes);
    var ws := kept + NewWishes(pid, ranking);
    assert Edit(db, pid, name, Some(ranking)).db.wishes == ws;
    forall k | 0 <= k < |opts| ensures |MatchingWishes(ws, pid, opts[k].id)| <= 1 {
      RowsForOptionAfterEdit(opts[k], kept, pid, ranking);
    }
    forall a, b |
      && 0 <= a < |ws| && 0 <= b < |ws|
      && ws[a].participantId == pid && ws[b].participantId == pid
      && ws[a].rank > 0 && ws[a].rank == ws[b].rank
      ensures a == b
    {
      assert a >= |kept| && b >= |kept|;
      assert ws[a] == NewWishes(pid, ranking)[a - |kept|] && ws[b] == NewWishes(pid, ranking)[b - |kept|];
    }
  }

  /** The edit does not check that the list is free of repeats: an id of a campaign option listed
      twice leaves two wish rows for that option, so the rows are no longer well formed. */
  lemma EditRepeatedIdIllFormed(db: Db, pid: Id, name: string, ranking: seq<Id>, opts: seq<OptionRow>, i: nat, j: nat)
    requires i < j < |ranking| && ranking[i] == ranking[j]
    requires ranking[i] in OptionIds(opts)
    ensures !WishesWellFormed(Edit(db, pid, name, Some(ranking)).db.wishes, pid, opts)
  {
    var kept := Filter((w: Wish) => w.participantId != pid, db.wishes);
    var ws := kept + NewWishes(pid, ranking);
    assert Edit(db, pid, name, Some(ranking)).db.wishes == ws;
    var x := ranking[i];
    var k := OptionIdIndex(opts, x);
    var m := MatchingWishes(ws, pid, x);
    assert ws[|kept| + i] == Wish(pid, x, i + 1) && ws[|kept| + j] == Wish(pid, x, j + 1);
    assert Wish(pid, x, i + 1) in m && Wish(pid, x, j + 1) in m;
    assert |MatchingWishes(ws, pid, opts[k].id)| > 1;
  }

  lemma {:induction false} JoinRowsAfterEdit(opts: seq<OptionRow>, kept: seq<Wish>, pid: Id, ranking: seq<Id>)
    requires Distinct(ranking)
    requires forall i :: 0 <= i < |kept| ==> kept[i].participantId != pid
    ensures JoinRows(opts, kept + NewWishes(pid, ranking), pid) == EditedRows(opts, ranking)
  {
    if |opts| > 0 {
      var wishes := kept + NewWishes(pid, ranking);
      RowsForOptionAfterEdit(opts[0], kept, pid, ranking);
      JoinRowsAfterEdit(opts[1..], kept, pid, ranking);
      JoinRowsCons(opts, wishes, pid);
      EditedRowsCons(opts, ranking);
    }
  }

  lemma JoinRowsCons(opts: seq<OptionRow>, wishes: seq<Wish>, pid: Id)
    requires |opts| > 0
    ensures JoinRows(opts, wishes, pid) == RowsForOption(opts[0], wishes, pid) + JoinRows(opts[1..], wishes, pid)
  {
  }

  lemma EditedRowsCons(opts: seq<OptionRow>, ranking: seq<Id>)
    requires |opts| > 0
    ensures EditedRows(opts, ranking) == [Row(Info(opts[0]), RankIn(ranking, opts[0].id))] + EditedRows(opts[1..], ranking)
  {
  }

  lemma InfosConcat(a: seq<OptionRow>, b: seq<OptionRow>)
    ensures Infos(a + b) == Infos(a) + Infos(b)
  {
  }

  lemma UnrankedStep<T>(rows: seq<Row<T>>)
    requires |rows| > 0
    ensures Unranked(rows) == Unranked(Init(rows)) + (if IsRanked(Last(rows)) then [] else [Last(rows).item])
  {
  }

  lemma OptionsNotInStep(front: seq<OptionRow>, x: OptionRow, ranking: seq<Id>)
    ensures OptionsNotIn(front + [x], ranking) == OptionsNotIn(front, ranking) + (if x.id in ranking then [] else [x])
  {
    FilterConcat((o: OptionRow) => o.id !in ranking, front, [x]);
  }

  lemma {:induction false} UnrankedAfterEdit(opts: seq<OptionRow>, ranking: seq<Id>)
    ensures Unranked(EditedRows(opts, ranking)) == Infos(OptionsNotIn(opts, ranking))
  {
    if |opts| > 0 {
      var front, x := opts[..|opts| - 1], opts[|opts| - 1];
      UnrankedAfterEdit(front, ranking);
      assert opts == front + [x];
      UnrankedAfterEditStep(front, x, ranking);
    }
  }

  lemma UnrankedAfterEditStep(front: seq<OptionRow>, x: OptionRow, ranking: seq<Id>)
    requires Unranked(EditedRows(front, ranking)) == Infos(OptionsNotIn(front, ranking))
    ensures Unranked(EditedRows(front + [x], ranking)) == Infos(OptionsNotIn(front + [x], ranking))
  {
    var opts := front + [x];
    assert opts[..|opts| - 1] == front;
    EditedRowsSnoc(opts, ranking);
    UnrankedStep(EditedRows(opts, ranking));
    OptionsNotInStep(front, x, ranking);
    if x.id in ranking {
      assert OptionsNotIn(opts, ranking) == OptionsNotIn(front, ranking) + [];
    } else {
      InfosConcat(OptionsNotIn(front, ranking), [x]);
    }
  }

  /** The edited rows of all options but the last, and the last option's row. */
  lemma EditedRowsSnoc(opts: seq<OptionRow>, ranking: seq<Id>)
    requires |opts| > 0
    ensures Init(EditedRows(opts, ranking)) == EditedRows(opts[..|opts| - 1], ranking)
    ensures Last(EditedRows(opts, ranking)) == Row(Info(opts[|opts| - 1]), RankIn(ranking, opts[|opts| - 1].id))
  {
  }

  lemma EditedRowsDistinctRanks(opts: seq<OptionRow>, ranking: seq<Id>)
    requires UniqueOptionIds(opts)
    ensures DistinctRanks(EditedRows(opts, ranking))
  {
    var rows := EditedRows(opts, ranking);
    forall i, j | 0 <= i < |rows| && 0 <= j < |rows| && IsRanked(rows[i]) && RankOf(rows[i]) == RankOf(rows[j])
      ensures i == j
    {
      var k := RankOf(rows[i]) - 1;
      assert opts[i].id == ranking[k] && opts[j].id == ranking[k];
      assert ((o: OptionRow) => o.id)(opts[i]) == ((o: OptionRow) => o.id)(opts[j]);
    }
  }

  /** Reconciling the rows an edit leaves: the listed options in list order, then the rest. */
  lemma ReconcileAfterEdit(opts: seq<OptionRow>, ranking: seq<Id>)
    requires UniqueOptionIds(opts)
    requires Distinct(ranking)
    requires forall k :: 0 <= k < |ranking| ==> ranking[k] in OptionIds(opts)
    ensures var out := Reconcile(EditedRows(opts, ranking));
            && |out| == |opts|
            && |ranking| <= |out|
            && (forall k :: 0 <= k < |ranking| ==> out[k].id == ranking[k] && out[k] in Infos(opts))
            && out[|ranking|..] == Infos(OptionsNotIn(opts, ranking))
  {
    var rows := EditedRows(opts, ranking);
    var n := |ranking|;
    EditedRowsDistinctRanks(opts, ranking);
    forall r | 1 <= r <= n ensures LastRanked(rows, r).Some? {
      var i := OptionIdIndex(opts, ranking[r - 1]);
      assert IndexOf(ranking, ranking[r - 1]) == r - 1;
      assert IsRanked(rows[i]) && RankOf(rows[i]) == r;
    }
    RankingFacts.ReconcileContiguous(rows, n);
    var out: seq<OptionInfo> := Reconcile(rows);
    forall k | 0 <= k < n ensures out[k].id == ranking[k] && out[k] in Infos(opts) {
      var i := OptionIdIndex(opts, ranking[k]);
      assert IndexOf(ranking, ranking[k]) == k;
      assert IsRanked(rows[i]) && RankOf(rows[i]) == k + 1;
      assert out[k] == Info(opts[i]);
      assert Infos(opts)[i] == Info(opts[i]);
    }
    UnrankedAfterEdit(opts, ranking);
  }

  lemma FindAfterRename(db: Db, pid: Id, name: string)
    requires FindParticipant(db, pid).Some?
    ensures var p := FindParticipant(db, pid).value;
            FindParticipant(db.(participants := Rename(db.participants, pid, name)), pid) == Some(p.(name := name))
  {
    var ps := db.participants;
    var ps' := Rename(ps, pid, name);
    var f := (p: Participant) => p.id == pid;
    FirstIndexSame(f, ps, ps');
  }

  /** Round trip: after a successful edit with a list of distinct options of the participant's
      campaign, the reconciled ranking lists exactly those options in list order, followed by the
      campaign's other options in table order, and the view shows the new name. */
  lemma EditThenView(db: Db, pid: Id, name: string, ranking: seq<Id>)
    requires Valid(db)
    requires FindParticipant(db, pid).Some?
    requires Distinct(ranking)
    requires forall k :: 0 <= k < |ranking| ==>
               ranking[k] in OptionIds(OptionsOf(db, FindParticipant(db, pid).value.campaignId))
    ensures var opts := OptionsOf(db, FindParticipant(db, pid).value.campaignId);
            var v := GetFromId(Edit(db, pid, name, Some(ranking)).db, pid);
            && v.id == Some(pid) && v.name == Some(name)
            && |v.wishRanking| == |opts|
            && |ranking| <= |v.wishRanking|
            && (forall k :: 0 <= k < |ranking| ==> v.wishRanking[k].id == ranking[k] && v.wishRanking[k] in Infos(opts))
            && v.wishRanking[|ranking|..] == Infos(OptionsNotIn(opts, ranking))
  {
    var p := FindParticipant(db, pid).value;
    var opts := OptionsOf(db, p.campaignId);
    EditRows(db, pid, name, ranking);
    OptionsOfUnique(db, p.campaignId);
    ReconcileAfterEdit(opts, ranking);
  }

  /** After the edit the participant is found under the new name and the join yields the edited rows. */
  lemma EditRows(db: Db, pid: Id, name: string, ranking: seq<Id>)
    requires FindParticipant(db, pid).Some?
    requires Distinct(ranking)
    ensures var p := FindParticipant(db, pid).value;
            var db' := Edit(db, pid, name, Some(ranking)).db;
            && FindParticipant(db', pid) == Some(p.(name := name))
            && OptionsOf(db', p.campaignId) == OptionsOf(db, p.campaignId)
            && WishRows(db', pid) == EditedRows(OptionsOf(db, p.campaignId), ranking)
  {
    var p := FindParticipant(db, pid).value;
    var opts := OptionsOf(db, p.campaignId);
    var db' := Edit(db, pid, name, Some(ranking)).db;
    var kept := Filter((w: Wish) => w.participantId != pid, db.wishes);
    FindAfterRename(db, pid, name);
    assert OptionsOf(db', p.campaignId) == opts;
    JoinRowsAfterEdit(opts, kept, pid, ranking);
  }

  // ---------------------------------------------------------------------------
  // add
  // ---------------------------------------------------------------------------

  /** `add({ campaignId, name })` with `freshId` standing for the random id generator's output. */
  function Add(db: Db, freshId: Id, campaignId: Id, name: string): Db
    requires FindParticipant(db, freshId).None?
  {
    db.(participants := db.participants + [Participant(freshId, campaignId, name)])
  }

  /** All rows unranked: the ranking is the rows' options in row order. */
  lemma {:induction false} ReconcileNoRanks<T>(rows: seq<Row<T>>)
    requires forall i :: 0 <= i < |rows| ==> !IsRanked(rows[i])
    ensures Reconcile(rows) == Items(rows)
  {
    RankingFacts.ReconcileIsInterleave(rows);
    assert Slots(rows) == [];
    UnrankedIsItems(rows);
  }

  lemma {:induction false} UnrankedIsItems<T>(rows: seq<Row<T>>)
    requires forall i :: 0 <= i < |rows| ==> !IsRanked(rows[i])
    ensures Unranked(rows) == Items(rows)
  {
    if |rows| > 0 {
      UnrankedIsItems(Init(rows));
      assert Items(rows) == Items(Init(rows)) + [Last(rows).item];
    }
  }

  lemma {:induction false} JoinRowsNoWishes(opts: seq<OptionRow>, wishes: seq<Wish>, pid: Id)
    requires forall i :: 0 <= i < |wishes| ==> wishes[i].participantId != pid
    ensures JoinRows(opts, wishes, pid) == seq(|opts|, i requires 0 <= i < |opts| => Row(Info(opts[i]), None))
  {
    if |opts| > 0 {
      FilterNone((w: Wish) => w.participantId == pid && w.optionId == opts[0].id, wishes);
      JoinRowsNoWishes(opts[1..], wishes, pid);
    }
  }

  /** A new participant is listed last among its campaign's participants, the other campaigns'
      listings do not change, and the keys stay valid. */
  lemma AddEffect(db: Db, freshId: Id, campaignId: Id, name: string)
    requires FindParticipant(db, freshId).None?
    ensures var db' := Add(db, freshId, campaignId, name);
            && GetAll(db', campaignId) == GetAll(db, campaignId) + [Participant(freshId, campaignId, name)]
            && (forall c :: c != campaignId ==> GetAll(db', c) == GetAll(db, c))
            && (Valid(db) ==> Valid(db'))
  {
    var db' := Add(db, freshId, campaignId, name);
    var x := Participant(freshId, campaignId, name);
    FilterConcat((p: Participant) => p.campaignId == campaignId, db.participants, [x]);
    forall c | c != campaignId ensures GetAll(db', c) == GetAll(db, c) {
      FilterConcat((p: Participant) => p.campaignId == c, db.participants, [x]);
    }
    if Valid(db) {
      UniqueAfterInsert((p: Participant) => p.id, db.participants, x);
    }
  }

  /** A new participant, when no stale wish row carries its id, sees every option of its campaign,
      unranked, in table order. */
  lemma AddThenView(db: Db, freshId: Id, campaignId: Id, name: string)
    requires FindParticipant(db, freshId).None?
    requires WishesOf(db.wishes, freshId) == []
    ensures GetFromId(Add(db, freshId, campaignId, name), freshId) ==
            View(Some(freshId), Some(name), Infos(OptionsOf(db, campaignId)))
  {
    var db' := Add(db, freshId, campaignId, name);
    var x := Participant(freshId, campaignId, name);
    assert forall i :: 0 <= i < |db.wishes| ==> db.wishes[i].participantId != freshId;
    FirstIndexAppend((p: Participant) => p.id == freshId, db.participants, x);
    assert FindParticipant(db', freshId) == Some(x);
    var opts := OptionsOf(db, campaignId);
    assert OptionsOf(db', campaignId) == opts;
    JoinRowsNoWishes(opts, db.wishes, freshId);
    var rows := WishRows(db', freshId);
    ReconcileNoRanks(rows);
  }

  lemma FirstIndexAppend<T>(f: T -> bool, s: seq<T>, x: T)
    requires forall i :: 0 <= i < |s| ==> !f(s[i])
    requires f(x)
    ensures FirstIndex(f, s + [x]) == |s|
  {
    var i := FirstIndex(f, s + [x]);
    assert (s + [x])[|s|] == x;
  }

  // ---------------------------------------------------------------------------
  // delete
  // ---------------------------------------------------------------------------

  /** `delete(participantId)`: its wish rows, then its row. */
  function Delete(db: Db, pid: Id): Db
  {
    db.(wishes := Filter((w: Wish) => w.participantId != pid, db.wishes),
        participants := Filter((p: Participant) => p.id != pid, db.participants))
  }

  /** The delete cascade removes exactly the participant's row and wish rows, keeps the keys valid,
      and afterwards the participant's view is empty while every other participant's view is unchanged. */
  lemma DeleteEffect(db: Db, pid: Id)
    ensures var db' := Delete(db, pid);
            && db'.campaigns == db.campaigns && db'.options == db.options
            && WishesOf(db'.wishes, pid) == []
            && (forall q :: q != pid ==> WishesOf(db'.wishes, q) == WishesOf(db.wishes, q))
            && FindParticipant(db', pid).None?
            && (forall i :: 0 <= i < |db.participants| && db.participants[i].id != pid ==> db.participants[i] in db'.participants)
            && (Valid(db) ==> Valid(db'))
    ensures GetFromId(Delete(db, pid), pid) == View(None, None, [])
    ensures forall q :: q != pid ==> GetFromId(Delete(db, pid), q) == GetFromId(db, q)
  {
    var db' := Delete(db, pid);
    var keep := (w: Wish) => w.participantId != pid;
    FilterNone((w: Wish) => w.participantId == pid, db'.wishes);
    forall q | q != pid ensures WishesOf(db'.wishes, q) == WishesOf(db.wishes, q) {
      FilterFilter((w: Wish) => w.participantId == q, keep, db.wishes);
    }
    if Valid(db) {
      FilterKeepsUnique((p: Participant) => p.id, (p: Participant) => p.id != pid, db.participants);
    }
    forall q | q != pid ensures GetFromId(db', q) == GetFromId(db, q) {
      DeleteKeepsView(db, pid, q);
    }
  }

  lemma DeleteKeepsView(db: Db, pid: Id, q: Id)
    requires q != pid
    ensures GetFromId(Delete(db, pid), q) == GetFromId(db, q)
  {
    var db' := Delete(db, pid);
    var f := (p: Participant) => p.id == q;
    FirstKeptByFilter(f, (p: Participant) => p.id != pid, db.participants);
    assert FindParticipant(db', q) == FindParticipant(db, q);
    if FindParticipant(db, q).Some? {
      var opts := OptionsOf(db, FindParticipant(db, q).value.campaignId);
      JoinRowsIgnoresOthers(opts, db.wishes, pid, q);
    }
  }

  lemma FirstStep<T>(f: T -> bool, s: seq<T>)
    requires |s| > 0
    ensures First(f, s) == if f(s[0]) then Some(s[0]) else First(f, s[1..])
  {
    if !f(s[0]) {
      var i := FirstIndex(f, s[1..]);
      assert FirstIndex(f, s) == 1 + i;
      if i < |s| - 1 {
        assert s[1 + i] == s[1..][i];
      }
    }
  }

  /** Dropping rows that fail `g` does not change the first row satisfying `f`, when `f` implies `g`. */
  lemma {:induction false} FirstKeptByFilter<T>(f: T -> bool, g: T -> bool, s: seq<T>)
    requires forall x :: f(x) ==> g(x)
    ensures First(f, Filter(g, s)) == First(f, s)
  {
    if |s| > 0 {
      FirstKeptByFilter(f, g, s[1..]);
      FirstStep(f, s);
      if g(s[0]) {
        assert Filter(g, s) == [s[0]] + Filter(g, s[1..]);
        FirstStep(f, Filter(g, s));
        assert Filter(g, s)[1..] == Filter(g, s[1..]);
      }
    }
  }

  /** Removing another participant's wish rows leaves the join rows of `q` unchanged. */
  lemma {:induction false} JoinRowsIgnoresOthers(opts: seq<OptionRow>, wishes: seq<Wish>, pid: Id, q: Id)
    requires q != pid
    ensures JoinRows(opts, Filter((w: Wish) => w.participantId != pid, wishes), q) == JoinRows(opts, wishes, q)
  {
    if |opts| > 0 {
      FilterFilter((w: Wish) => w.participantId == q && w.optionId == opts[0].id,
                   (w: Wish) => w.participantId != pid, wishes);
      JoinRowsIgnoresOthers(opts[1..], wishes, pid, q);
    }
  }
}

=== FILE: ranking.dfy ===
/**
  The wish-ranking reconciliation of `Participants.getFromId`: the rows of
  "every option of the participant's campaign, left-joined with that
  participant's wishes" become one ordered list of options.

  The algorithm works on a slot sequence (`null` in JavaScript is `None`):
    1. allocate `maxRank` empty slots;
    2. put every ranked option at slot `rank - 1`, later rows overwriting earlier ones;
    3. walk the unranked options with a cursor that only moves forward, putting
       each into the first empty slot at or after the cursor, or appending it
       once the cursor is past the end;
    4. drop the slots that are still empty.
  The row order is whatever order the store returns (the query has no ORDER BY),
  so every definition here takes it as given.
*/
module Ranking {
  import opened Wrappers

  /** One row of the join: an option and the rank column, NULL when the participant has no wish for it. */
  datatype Row<T> = Row(item: T, rank: Option<nat>)

  /** The rank a row contributes; 0 stands for "unranked", which covers NULL and a falsy rank of 0. */
  function RankOf<T>(row: Row<T>): nat
  {
    match row.rank
    case Some(r) => r
    case None => 0
  }

  /** A rank that counts as truthy in JavaScript: present and non-zero. */
  predicate IsRanked<T>(row: Row<T>)
  {
    RankOf(row) > 0
  }

  function Init<T>(s: seq<T>): seq<T>
    requires |s| > 0
  {
    s[..|s| - 1]
  }

  function Last<T>(s: seq<T>): T
    requires |s| > 0
  {
    s[|s| - 1]
  }

  /** The option of every row, in row order. */
  function Items<T>(rows: seq<Row<T>>): (xs: seq<T>)
    ensures |xs| == |rows|
    ensures forall i :: 0 <= i < |rows| ==> xs[i] == rows[i].item
  {
    seq(|rows|, i requires 0 <= i < |rows| => rows[i].item)
  }

  /** The largest rank among the rows, 0 when no row is ranked (the `reduce` with `Math.max`). */
  function MaxRank<T>(rows: seq<Row<T>>): (m: nat)
    ensures forall i :: 0 <= i < |rows| ==> RankOf(rows[i]) <= m
    ensures m == 0 || exists i :: 0 <= i < |rows| && RankOf(rows[i]) == m
  {
    if |rows| == 0 then 0
    else
      var m := MaxRank(Init(rows));
      assert forall i :: 0 <= i < |rows| - 1 ==> Init(rows)[i] == rows[i];
      if RankOf(Last(rows)) > m then RankOf(Last(rows)) else m
  }

  /** The option of the last row ranked `r`, which is the one whose write to slot `r - 1` survives. */
  function LastRanked<T>(rows: seq<Row<T>>, r: nat): (x: Option<T>)
    ensures x.None? <==> forall i :: 0 <= i < |rows| ==> !(IsRanked(rows[i]) && RankOf(rows[i]) == r)
    ensures x.Some? ==> exists i :: 0 <= i < |rows| && rows[i].item == x.value && IsRanked(rows[i]) &&
                                    RankOf(rows[i]) == r && forall j :: i < j < |rows| ==> RankOf(rows[j]) != r
  {
    if |rows| == 0 then None
    else if IsRanked(Last(rows)) && RankOf(Last(rows)) == r then Some(Last(rows).item)
    else
      assert forall i :: 0 <= i < |rows| - 1 ==> Init(rows)[i] == rows[i];
      LastRanked(Init(rows), r)
  }

  /** `n` empty slots. */
  function EmptySlots<T>(n: nat): (s: seq<Option<T>>)
    ensures |s| == n
    ensures forall k :: 0 <= k < n ==> s[k].None?
  {
    seq(n, _ => None)
  }

  /** Step 2: each ranked row writes its option to slot `rank - 1`, in row order. */
  function Place<T>(slots: seq<Option<T>>, rows: seq<Row<T>>): (r: seq<Option<T>>)
    requires forall i :: 0 <= i < |rows| ==> RankOf(rows[i]) <= |slots|
    ensures |r| == |slots|
    ensures forall k :: 0 <= k < |slots| ==>
              r[k] == (if LastRanked(rows, k + 1).Some? then LastRanked(rows, k + 1) else slots[k])
  {
    if |rows| == 0 then slots
    else
      assert forall i :: 0 <= i < |rows| - 1 ==> Init(rows)[i] == rows[i];
      var s := Place(slots, Init(rows));
      var row := Last(rows);
      if IsRanked(row) then s[RankOf(row) - 1 := Some(row.item)] else s
  }

  /** The slot sequence after steps 1 and 2. */
  function Slots<T>(rows: seq<Row<T>>): (s: seq<Option<T>>)
    ensures |s| == MaxRank(rows)
    ensures forall k :: 0 <= k < |s| ==> s[k] == LastRanked(rows, k + 1)
  {
    Place(EmptySlots(MaxRank(rows)), rows)
  }

  /** The options of the unranked rows, in row order. */
  function Unranked<T>(rows: seq<Row<T>>): (u: seq<T>)
    ensures |u| <= |rows|
  {
    if |rows| == 0 then []
    else Unranked(Init(rows)) + (if IsRanked(Last(rows)) then [] else [Last(rows).item])
  }

  /** The options of the ranked rows, in row order. */
  function RankedItems<T>(rows: seq<Row<T>>): (xs: seq<T>)
    ensures |xs| <= |rows|
  {
    if |rows| == 0 then []
    else RankedItems(Init(rows)) + (if IsRanked(Last(rows)) then [Last(rows).item] else [])
  }

  /** Where the cursor stops when it skips filled slots: the first empty slot at or after `i`,
      or the length when there is none (reading past the end yields `undefined`). */
  function NextFree<T>(slots: seq<Option<T>>, i: nat): (j: nat)
    requires i <= |slots|
    ensures i <= j <= |slots|
    ensures j < |slots| ==> slots[j].None?
    ensures forall k :: i <= k < j ==> slots[k].Some?
    decreases |slots| - i
  {
    if i == |slots| || slots[i].None? then i else NextFree(slots, i + 1)
  }

  /** Step 3: the unranked options `pending` go one by one into the next empty slot at or after
      `cursor`, or are pushed at the end; the cursor then moves one past the slot just used. */
  function Fill<T>(slots: seq<Option<T>>, cursor: nat, pending: seq<T>): (r: seq<Option<T>>)
    requires cursor <= |slots|
    ensures |slots| <= |r|
    ensures forall k :: 0 <= k < |slots| && slots[k].Some? ==> r[k] == slots[k]
    decreases |pending|
  {
    if |pending| == 0 then slots
    else
      var j := NextFree(slots, cursor);
      var next := if j < |slots| then slots[j := Some(pending[0])] else slots + [Some(pending[0])];
      Fill(next, j + 1, pending[1..])
  }

  /** Step 4: the filled slots in order, the empty ones dropped. */
  function Compact<T>(slots: seq<Option<T>>): (r: seq<T>)
    ensures |r| <= |slots|
  {
    if |slots| == 0 then []
    else
      match Last(slots)
      case Some(x) => Compact(Init(slots)) + [x]
      case None => Compact(Init(slots))
  }

  /** The number of empty slots. */
  function Holes<T>(slots: seq<Option<T>>): nat
  {
    |slots| - |Compact(slots)|
  }

  /** The reconciled `wishRanking` computed from the join rows. */
  function Reconcile<T>(rows: seq<Row<T>>): seq<T>
  {
    Compact(Fill(Slots(rows), 0, Unranked(rows)))
  }

  /**
    Reference definition of the outcome, without a cursor: read the ranked slots
    left to right; a filled slot yields its option, an empty slot yields the next
    pending unranked option (or nothing once they are used up), and whatever is
    still pending at the end follows.
  */
  function Interleave<T>(slots: seq<Option<T>>, pending: seq<T>): seq<T>
  {
    if |slots| == 0 then pending
    else match slots[0]
      case Some(x) => [x] + Interleave(slots[1..], pending)
      case None =>
        if |pending| == 0 then Interleave(slots[1..], pending)
        else [pending[0]] + Interleave(slots[1..], pending[1..])
  }

  /** No two ranked rows share a rank (the store's per-participant uniqueness of ranks). */
  ghost predicate DistinctRanks<T>(rows: seq<Row<T>>)
  {
    forall i, j :: 0 <= i < |rows| && 0 <= j < |rows| && IsRanked(rows[i]) && RankOf(rows[i]) == RankOf(rows[j]) ==> i == j
  }

  /** `a` is `b` with some elements left out. */
  predicate Subseq<T(==)>(a: seq<T>, b: seq<T>)
    decreases |b|
  {
    |a| == 0 || (|b| > 0 && ((a[0] == b[0] && Subseq(a[1..], b[1..])) || Subseq(a, b[1..])))
  }
}

=== FILE: ranking_facts.dfy ===
/**
  Properties of the reconciliation: it agrees with the cursor-free reference
  definition `Interleave`, loses nothing when ranks are distinct, keeps ranked
  options in rank order and unranked options in row order, and fills the gaps
  left to right before appending.
*/
module RankingFacts {
  import opened Wrappers
  import opened Ranking

  // ---------------------------------------------------------------------------
  // Compaction
  // ---------------------------------------------------------------------------

  lemma {:induction false} CompactConcat<T>(a: seq<Option<T>>, b: seq<Option<T>>)
    ensures Compact(a + b) == Compact(a) + Compact(b)
    decreases |b|
  {
    if |b| == 0 {
      assert a + b == a;
    } else {
      assert Init(a + b) == a + Init(b);
      assert Last(a + b) == Last(b);
      CompactConcat(a, Init(b));
    }
  }

  /** Compaction, read from the front. */
  lemma CompactCons<T>(x: Option<T>, t: seq<Option<T>>)
    ensures Compact([x] + t) == (match x case Some(v) => [v] case None => []) + Compact(t)
  {
    CompactConcat([x], t);
    assert Init([x]) == [];
  }

  /** Dropping empty slots from a fully filled sequence keeps every option in place. */
  lemma {:induction false} CompactFull<T>(s: seq<Option<T>>)
    requires forall k :: 0 <= k < |s| ==> s[k].Some?
    ensures |Compact(s)| == |s|
    ensures forall k :: 0 <= k < |s| ==> Compact(s)[k] == s[k].value
  {
    if |s| > 0 {
      CompactFull(Init(s));
    }
  }

  /** A filled slot's option survives compaction. */
  lemma {:induction false} CompactMember<T>(s: seq<Option<T>>, k: nat)
    requires k < |s| && s[k].Some?
    ensures exists p :: 0 <= p < |Compact(s)| && Compact(s)[p] == s[k].value
  {
    if k < |s| - 1 {
      CompactMember(Init(s), k);
      var p :| 0 <= p < |Compact(Init(s))| && Compact(Init(s))[p] == Init(s)[k].value;
      assert Compact(s)[p] == s[k].value;
    } else {
      assert Compact(s)[|Compact(Init(s))|] == s[k].value;
    }
  }

  /** Compaction keeps filled slots in slot order. */
  lemma {:induction false} CompactOrder<T>(s: seq<Option<T>>, k1: nat, k2: nat)
    requires k1 < k2 < |s| && s[k1].Some? && s[k2].Some?
    ensures exists p, q :: 0 <= p < q < |Compact(s)| && Compact(s)[p] == s[k1].value && Compact(s)[q] == s[k2].value
  {
    if k2 < |s| - 1 {
      CompactOrder(Init(s), k1, k2);
      var p, q :| 0 <= p < q < |Compact(Init(s))| && Compact(Init(s))[p] == Init(s)[k1].value &&
                  Compact(Init(s))[q] == Init(s)[k2].value;
      assert Compact(s)[p] == s[k1].value && Compact(s)[q] == s[k2].value;
    } else {
      CompactMember(Init(s), k1);
      var p :| 0 <= p < |Compact(Init(s))| && Compact(Init(s))[p] == Init(s)[k1].value;
      var q := |Compact(Init(s))|;
      assert Compact(s)[p] == s[k1].value && Compact(s)[q] == s[k2].value;
    }
  }

  /** Writing into an empty slot adds exactly that option to the compacted multiset. */
  lemma CompactWriteHole<T>(s: seq<Option<T>>, k: nat, x: T)
    requires k < |s| && s[k].None?
    ensures multiset(Compact(s[k := Some(x)])) == multiset(Compact(s)) + multiset{x}
  {
    assert s == s[..k] + [s[k]] + s[k + 1..];
    assert s[k := Some(x)] == s[..k] + [Some(x)] + s[k + 1..];
    CompactConcat(s[..k] + [s[k]], s[k + 1..]);
    CompactConcat(s[..k], [s[k]]);
    CompactConcat(s[..k] + [Some(x)], s[k + 1..]);
    CompactConcat(s[..k], [Some(x)]);
    assert Init([s[k]]) == [] && Init([Some(x)]) == [];
  }

  /** Overwriting a slot adds at most the new option to the compacted multiset. */
  lemma CompactWrite<T>(s: seq<Option<T>>, k: nat, x: T)
    requires k < |s|
    ensures multiset(Compact(s[k := Some(x)])) <= multiset(Compact(s)) + multiset{x}
  {
    assert s == s[..k] + [s[k]] + s[k + 1..];
    assert s[k := Some(x)] == s[..k] + [Some(x)] + s[k + 1..];
    CompactConcat(s[..k] + [s[k]], s[k + 1..]);
    CompactConcat(s[..k], [s[k]]);
    CompactConcat(s[..k] + [Some(x)], s[k + 1..]);
    CompactConcat(s[..k], [Some(x)]);
    assert Init([s[k]]) == [] && Init([Some(x)]) == [];
  }

  // ---------------------------------------------------------------------------
  // The cursor walk equals the reference definition
  // ---------------------------------------------------------------------------

  /** With no unranked option left, the reference keeps exactly the filled slots. */
  lemma {:induction false} InterleaveNothingPending<T>(s: seq<Option<T>>)
    ensures Interleave(s, []) == Compact(s)
  {
    if |s| > 0 {
      assert s == [s[0]] + s[1..];
      CompactCons(s[0], s[1..]);
      InterleaveNothingPending(s[1..]);
    }
  }

  /** A run of filled slots passes through the reference unchanged. */
  lemma {:induction false} InterleaveFilledPrefix<T>(a: seq<Option<T>>, b: seq<Option<T>>, p: seq<T>)
    requires forall k :: 0 <= k < |a| ==> a[k].Some?
    ensures Interleave(a + b, p) == Compact(a) + Interleave(b, p)
  {
    if |a| == 0 {
      assert a + b == b;
    } else {
      var x := a[0].value;
      assert (a + b)[0] == Some(x) && (a + b)[1..] == a[1..] + b;
      assert Interleave(a + b, p) == [x] + Interleave(a[1..] + b, p);
      assert a == [Some(x)] + a[1..];
      CompactCons(Some(x), a[1..]);
      InterleaveFilledPrefix(a[1..], b, p);
    }
  }

  /** The cursor invariant: filling from `c` keeps the slots before `c` and behaves like the
      reference on the rest. */
  lemma {:induction false} FillMatchesInterleave<T>(slots: seq<Option<T>>, c: nat, p: seq<T>)
    requires c <= |slots|
    ensures Compact(Fill(slots, c, p)) == Compact(slots[..c]) + Interleave(slots[c..], p)
    decreases |p|, 1
  {
    if |p| == 0 {
      InterleaveNothingPending(slots[c..]);
      assert slots == slots[..c] + slots[c..];
      CompactConcat(slots[..c], slots[c..]);
    } else {
      var j := NextFree(slots, c);
      SkipFilled(slots, c, j, p);
      if j < |slots| {
        FillHoleCase(slots, c, p);
      } else {
        FillPushCase(slots, c, p);
        assert slots[..j] == slots && slots[j..] == [];
      }
    }
  }

  /** One move of the cursor walk. */
  lemma FillStep<T>(slots: seq<Option<T>>, c: nat, p: seq<T>)
    requires c <= |slots| && |p| > 0
    ensures var j := NextFree(slots, c);
            Fill(slots, c, p) == Fill(if j < |slots| then slots[j := Some(p[0])] else slots + [Some(p[0])], j + 1, p[1..])
  {
  }

  /** The cursor finds a hole: the walk puts the first pending option there and carries on. */
  lemma {:induction false} FillHoleCase<T>(slots: seq<Option<T>>, c: nat, p: seq<T>)
    requires c <= |slots| && |p| > 0 && NextFree(slots, c) < |slots|
    ensures Compact(Fill(slots, c, p)) == Compact(slots[..NextFree(slots, c)]) + Interleave(slots[NextFree(slots, c)..], p)
    decreases |p|, 0
  {
    var j := NextFree(slots, c);
    var next := slots[j := Some(p[0])];
    FillStep(slots, c, p);
    FillMatchesInterleave(next, j + 1, p[1..]);
    assert next[..j + 1] == slots[..j] + [Some(p[0])];
    assert next[j + 1..] == slots[j + 1..];
    FillIntoHole(slots, j, p);
  }

  /** The cursor runs past the end: the walk pushes the first pending option and carries on. */
  lemma {:induction false} FillPushCase<T>(slots: seq<Option<T>>, c: nat, p: seq<T>)
    requires c <= |slots| && |p| > 0 && NextFree(slots, c) == |slots|
    ensures Compact(Fill(slots, c, p)) == Compact(slots) + p
    decreases |p|, 0
  {
    var j := NextFree(slots, c);
    var next := slots + [Some(p[0])];
    FillStep(slots, c, p);
    FillMatchesInterleave(next, j + 1, p[1..]);
    assert next[..j + 1] == next && next[j + 1..] == [];
    FillAppend(slots, p);
  }

  /** Moving the cursor over filled slots does not change what the reference yields. */
  lemma SkipFilled<T>(slots: seq<Option<T>>, c: nat, j: nat, p: seq<T>)
    requires c <= j <= |slots|
    requires forall k :: c <= k < j ==> slots[k].Some?
    ensures Compact(slots[..c]) + Interleave(slots[c..], p) == Compact(slots[..j]) + Interleave(slots[j..], p)
  {
    var a := slots[c..j];
    assert forall k :: 0 <= k < |a| ==> a[k] == slots[c + k];
    assert slots[c..] == a + slots[j..];
    InterleaveFilledPrefix(a, slots[j..], p);
    assert slots[..j] == slots[..c] + a;
    CompactConcat(slots[..c], a);
  }

  /** One step of the cursor walk that fills the hole at `j`: the reference yields the same
      before and after the step. */
  lemma FillIntoHole<T>(slots: seq<Option<T>>, j: nat, p: seq<T>)
    requires j < |slots| && slots[j].None? && |p| > 0
    ensures Compact(slots[..j] + [Some(p[0])]) + Interleave(slots[j + 1..], p[1..])
         == Compact(slots[..j]) + Interleave(slots[j..], p)
  {
    HoleStep(slots[j..], slots[j + 1..], p);
    CompactSnoc(slots[..j], p[0]);
  }

  /** The reference on a sequence that starts with a hole hands it the first pending option. */
  lemma HoleStep<T>(s: seq<Option<T>>, tail: seq<Option<T>>, p: seq<T>)
    requires |s| > 0 && s[0].None? && s[1..] == tail && |p| > 0
    ensures Interleave(s, p) == [p[0]] + Interleave(tail, p[1..])
  {
  }

  /** Appending a filled slot appends its option. */
  lemma CompactSnoc<T>(s: seq<Option<T>>, x: T)
    ensures Compact(s + [Some(x)]) == Compact(s) + [x]
  {
    assert Init(s + [Some(x)]) == s;
  }

  /** One step of the cursor walk that runs past the end and pushes: the reference yields
      the same before and after the step. */
  lemma FillAppend<T>(slots: seq<Option<T>>, p: seq<T>)
    requires |p| > 0
    ensures Compact(slots + [Some(p[0])]) + Interleave([], p[1..]) == Compact(slots) + p
  {
    CompactSnoc(slots, p[0]);
    assert p == [p[0]] + p[1..];
  }

  /** The cursor walk started at slot 0 is the reference merge. */
  lemma FillFromStart<T>(slots: seq<Option<T>>, p: seq<T>)
    ensures Compact(Fill(slots, 0, p)) == Interleave(slots, p)
  {
    FillMatchesInterleave(slots, 0, p);
    assert slots[..0] == [] && slots[0..] == slots;
  }

  /** The reconciliation is the reference merge of the ranked slots with the unranked options. */
  lemma ReconcileIsInterleave<T>(rows: seq<Row<T>>)
    ensures Reconcile(rows) == Interleave(Slots(rows), Unranked(rows))
  {
    FillFromStart(Slots(rows), Unranked(rows));
  }

  // ---------------------------------------------------------------------------
  // What the reference keeps
  // ---------------------------------------------------------------------------

  /** The reference keeps every filled slot and every pending option, nothing else. */
  lemma {:induction false} InterleaveMultiset<T>(s: seq<Option<T>>, p: seq<T>)
    ensures multiset(Interleave(s, p)) == multiset(Compact(s)) + multiset(p)
  {
    if |s| > 0 {
      var rest := s[1..];
      assert s == [s[0]] + rest;
      match s[0]
      case Some(x) =>
        InterleaveMultiset(rest, p);
        InterleaveMultisetFilled(x, rest, p);
      case None =>
        if |p| == 0 {
          InterleaveMultiset(rest, p);
          InterleaveMultisetUnfilled(rest, p);
        } else {
          InterleaveMultiset(rest, p[1..]);
          InterleaveMultisetHole(rest, p);
        }
    }
  }

  /** Induction step of `InterleaveMultiset` for a filled first slot. */
  lemma InterleaveMultisetFilled<T>(x: T, rest: seq<Option<T>>, p: seq<T>)
    requires multiset(Interleave(rest, p)) == multiset(Compact(rest)) + multiset(p)
    ensures multiset(Interleave([Some(x)] + rest, p)) == multiset(Compact([Some(x)] + rest)) + multiset(p)
  {
    assert ([Some(x)] + rest)[1..] == rest;
    CompactCons(Some(x), rest);
  }

  /** Induction step of `InterleaveMultiset` for an empty first slot with an option pending. */
  lemma InterleaveMultisetHole<T>(rest: seq<Option<T>>, p: seq<T>)
    requires |p| > 0
    requires multiset(Interleave(rest, p[1..])) == multiset(Compact(rest)) + multiset(p[1..])
    ensures multiset(Interleave([None] + rest, p)) == multiset(Compact([None] + rest)) + multiset(p)
  {
    HoleStep([None] + rest, rest, p);
    CompactCons(None, rest);
    MultisetCons(p);
  }

  lemma MultisetCons<T>(p: seq<T>)
    requires |p| > 0
    ensures multiset(p) == multiset{p[0]} + multiset(p[1..])
  {
    assert p == [p[0]] + p[1..];
  }

  /** Induction step of `InterleaveMultiset` for an empty first slot with nothing pending. */
  lemma InterleaveMultisetUnfilled<T>(rest: seq<Option<T>>, p: seq<T>)
    requires |p| == 0
    requires multiset(Interleave(rest, p)) == multiset(Compact(rest)) + multiset(p)
    ensures multiset(Interleave([None] + rest, p)) == multiset(Compact([None] + rest)) + multiset(p)
  {
    assert ([None] + rest)[1..] == rest;
    CompactCons(None, rest);
  }

  lemma {:induction false} RankedUnrankedSplit<T>(rows: seq<Row<T>>)
    ensures multiset(RankedItems(rows)) + multiset(Unranked(rows)) == multiset(Items(rows))
  {
    if |rows| > 0 {
      RankedUnrankedSplit(Init(rows));
      assert Items(rows) == Items(Init(rows)) + [Last(rows).item];
    }
  }

  /** Placing ranks never produces more than the ranked options (overwrites lose the earlier one). */
  lemma {:induction false} PlaceBounded<T>(s0: seq<Option<T>>, rows: seq<Row<T>>)
    requires forall i :: 0 <= i < |rows| ==> RankOf(rows[i]) <= |s0|
    ensures multiset(Compact(Place(s0, rows))) <= multiset(Compact(s0)) + multiset(RankedItems(rows))
  {
    if |rows| > 0 {
      assert forall i :: 0 <= i < |rows| - 1 ==> Init(rows)[i] == rows[i];
      PlaceBounded(s0, Init(rows));
      var row := Last(rows);
      if IsRanked(row) {
        CompactWrite(Place(s0, Init(rows)), RankOf(row) - 1, row.item);
      }
    }
  }

  /** The preconditions of `PlaceExact` carry over to all rows but the last. */
  lemma PlaceExactFront<T>(s0: seq<Option<T>>, rows: seq<Row<T>>)
    requires |rows| > 0
    requires forall i :: 0 <= i < |rows| ==> RankOf(rows[i]) <= |s0|
    requires DistinctRanks(rows)
    requires forall i :: 0 <= i < |rows| && IsRanked(rows[i]) ==> s0[RankOf(rows[i]) - 1].None?
    ensures forall i :: 0 <= i < |Init(rows)| ==> RankOf(Init(rows)[i]) <= |s0|
    ensures DistinctRanks(Init(rows))
    ensures forall i :: 0 <= i < |Init(rows)| && IsRanked(Init(rows)[i]) ==> s0[RankOf(Init(rows)[i]) - 1].None?
  {
    assert forall i :: 0 <= i < |rows| - 1 ==> Init(rows)[i] == rows[i];
  }

  /** The slot the last ranked row writes to is still empty when its turn comes. */
  lemma PlaceTargetEmpty<T>(s0: seq<Option<T>>, rows: seq<Row<T>>)
    requires |rows| > 0 && IsRanked(Last(rows))
    requires forall i :: 0 <= i < |rows| ==> RankOf(rows[i]) <= |s0|
    requires DistinctRanks(rows)
    requires forall i :: 0 <= i < |rows| && IsRanked(rows[i]) ==> s0[RankOf(rows[i]) - 1].None?
    ensures forall i :: 0 <= i < |Init(rows)| ==> RankOf(Init(rows)[i]) <= |s0|
    ensures Place(s0, Init(rows))[RankOf(Last(rows)) - 1].None?
  {
    var front, r := Init(rows), RankOf(Last(rows));
    assert forall i :: 0 <= i < |rows| - 1 ==> front[i] == rows[i];
    assert LastRanked(front, r).None? by {
      forall i | 0 <= i < |front| ensures !(IsRanked(front[i]) && RankOf(front[i]) == r) {
        assert front[i] == rows[i];
      }
    }
    assert s0[r - 1].None? by {
      assert rows[|rows| - 1] == Last(rows);
    }
  }

  /** Placing one more ranked row into an empty slot adds exactly its option. */
  lemma PlaceRankedStep<T>(s0: seq<Option<T>>, rows: seq<Row<T>>)
    requires |rows| > 0 && IsRanked(Last(rows))
    requires forall i :: 0 <= i < |rows| ==> RankOf(rows[i]) <= |s0|
    requires forall i :: 0 <= i < |Init(rows)| ==> RankOf(Init(rows)[i]) <= |s0|
    requires Place(s0, Init(rows))[RankOf(Last(rows)) - 1].None?
    requires multiset(Compact(Place(s0, Init(rows)))) == multiset(Compact(s0)) + multiset(RankedItems(Init(rows)))
    ensures multiset(Compact(Place(s0, rows))) == multiset(Compact(s0)) + multiset(RankedItems(rows))
  {
    var placed, row := Place(s0, Init(rows)), Last(rows);
    var k := RankOf(row) - 1;
    assert Place(s0, rows) == placed[k := Some(row.item)];
    CompactWriteHole(placed, k, row.item);
    assert RankedItems(rows) == RankedItems(Init(rows)) + [row.item];
  }

  /** With distinct ranks and empty target slots, placing ranks adds exactly the ranked options. */
  lemma {:induction false} PlaceExact<T>(s0: seq<Option<T>>, rows: seq<Row<T>>)
    requires forall i :: 0 <= i < |rows| ==> RankOf(rows[i]) <= |s0|
    requires DistinctRanks(rows)
    requires forall i :: 0 <= i < |rows| && IsRanked(rows[i]) ==> s0[RankOf(rows[i]) - 1].None?
    ensures multiset(Compact(Place(s0, rows))) == multiset(Compact(s0)) + multiset(RankedItems(rows))
  {
    if |rows| > 0 {
      var front, row := Init(rows), Last(rows);
      PlaceExactFront(s0, rows);
      PlaceExact(s0, front);
      if IsRanked(row) {
        PlaceTargetEmpty(s0, rows);
        PlaceRankedStep(s0, rows);
      } else {
        assert RankedItems(rows) == RankedItems(front) + [];
      }
    }
  }

  /** The ranked slots hold at most the ranked options. */
  lemma SlotsBounded<T>(rows: seq<Row<T>>)
    ensures multiset(Compact(Slots(rows))) <= multiset(RankedItems(rows))
  {
    PlaceBounded(EmptySlots(MaxRank(rows)), rows);
    EmptyCompact<T>(MaxRank(rows));
  }

  /** Every option in the ranking comes from a row, at most as often as it occurs among the rows. */
  lemma ReconcileDrawsFromRows<T>(rows: seq<Row<T>>)
    ensures multiset(Reconcile(rows)) <= multiset(Items(rows))
    ensures forall k :: 0 <= k < |Reconcile(rows)| ==> Reconcile(rows)[k] in Items(rows)
  {
    var out := Reconcile(rows);
    ReconcileIsInterleave(rows);
    InterleaveMultiset(Slots(rows), Unranked(rows));
    SlotsBounded(rows);
    RankedUnrankedSplit(rows);
    assert multiset(out) <= multiset(Items(rows));
    forall k | 0 <= k < |out| ensures out[k] in Items(rows) {
      assert out[k] in multiset(out);
    }
  }

  lemma {:induction false} EmptyCompact<T>(n: nat)
    ensures Compact(EmptySlots<T>(n)) == []
  {
    if n > 0 {
      assert Init(EmptySlots<T>(n)) == EmptySlots<T>(n - 1);
      EmptyCompact<T>(n - 1);
    }
  }

  /** With distinct ranks every row's option appears exactly as often as among the rows:
      the ranking is a permutation of the campaign's options. */
  lemma ReconcileIsPermutation<T>(rows: seq<Row<T>>)
    requires DistinctRanks(rows)
    ensures multiset(Reconcile(rows)) == multiset(Items(rows))
    ensures |Reconcile(rows)| == |rows|
  {
    var slots := Slots(rows);
    ReconcileIsInterleave(rows);
    InterleaveMultiset(slots, Unranked(rows));
    assert multiset(Reconcile(rows)) == multiset(Compact(slots)) + multiset(Unranked(rows));
    var empty := EmptySlots<T>(MaxRank(rows));
    PlaceExact(empty, rows);
    EmptyCompact<T>(MaxRank(rows));
    assert multiset(Compact(slots)) == multiset(RankedItems(rows));
    RankedUnrankedSplit(rows);
    assert multiset(Reconcile(rows)) == multiset(Items(rows));
    assert |multiset(Reconcile(rows))| == |multiset(Items(rows))|;
  }

  // ---------------------------------------------------------------------------
  // Order
  // ---------------------------------------------------------------------------

  lemma {:induction false} SubseqRefl<T>(a: seq<T>)
    ensures Subseq(a, a)
  {
    if |a| > 0 {
      SubseqRefl(a[1..]);
    }
  }

  lemma SubseqCons<T>(a: seq<T>, x: T, b: seq<T>)
    requires Subseq(a, b)
    ensures Subseq(a, [x] + b)
  {
    assert ([x] + b)[1..] == b;
  }

  lemma SubseqBoth<T>(a: seq<T>, x: T, b: seq<T>)
    requires Subseq(a, b)
    ensures Subseq([x] + a, [x] + b)
  {
    assert ([x] + a)[1..] == a && ([x] + b)[1..] == b;
  }

  /** An element of a subsequence occurs in the longer sequence. */
  lemma {:induction false} SubseqMember<T>(a: seq<T>, b: seq<T>, i: nat)
    requires Subseq(a, b) && i < |a|
    ensures exists m :: 0 <= m < |b| && b[m] == a[i]
    decreases |b|
  {
    if a[0] == b[0] && Subseq(a[1..], b[1..]) {
      if i > 0 {
        SubseqMember(a[1..], b[1..], i - 1);
        var m :| 0 <= m < |b| - 1 && b[1..][m] == a[1..][i - 1];
        assert b[m + 1] == a[i];
      } else {
        assert b[0] == a[0];
      }
    } else {
      SubseqMember(a, b[1..], i);
      var m :| 0 <= m < |b| - 1 && b[1..][m] == a[i];
      assert b[m + 1] == a[i];
    }
  }

  /** A subsequence keeps relative order. */
  lemma {:induction false} SubseqOrder<T>(a: seq<T>, b: seq<T>, i: nat, j: nat)
    requires Subseq(a, b) && i < j < |a|
    ensures exists p, q :: 0 <= p < q < |b| && b[p] == a[i] && b[q] == a[j]
    decreases |b|
  {
    if a[0] == b[0] && Subseq(a[1..], b[1..]) {
      if i > 0 {
        SubseqOrder(a[1..], b[1..], i - 1, j - 1);
        var p, q :| 0 <= p < q < |b| - 1 && b[1..][p] == a[1..][i - 1] && b[1..][q] == a[1..][j - 1];
        assert b[p + 1] == a[i] && b[q + 1] == a[j];
      } else {
        SubseqMember(a[1..], b[1..], j - 1);
        var m :| 0 <= m < |b| - 1 && b[1..][m] == a[1..][j - 1];
        assert b[0] == a[0] && b[m + 1] == a[j];
      }
    } else {
      SubseqOrder(a, b[1..], i, j);
      var p, q :| 0 <= p < q < |b| - 1 && b[1..][p] == a[i] && b[1..][q] == a[j];
      assert b[p + 1] == a[i] && b[q + 1] == a[j];
    }
  }

  /** The reference keeps the filled slots in slot order and the pending options in their order. */
  lemma {:induction false} InterleaveKeepsOrder<T>(s: seq<Option<T>>, p: seq<T>)
    ensures Subseq(Compact(s), Interleave(s, p))
    ensures Subseq(p, Interleave(s, p))
  {
    if |s| == 0 {
      SubseqRefl(p);
    } else {
      assert s == [s[0]] + s[1..];
      CompactCons(s[0], s[1..]);
      match s[0]
      case Some(x) =>
        InterleaveKeepsOrder(s[1..], p);
        SubseqBoth(Compact(s[1..]), x, Interleave(s[1..], p));
        SubseqCons(p, x, Interleave(s[1..], p));
      case None =>
        assert Compact(s) == Compact(s[1..]);
        if |p| == 0 {
          InterleaveKeepsOrder(s[1..], p);
          assert Interleave(s, p) == Interleave(s[1..], p);
        } else {
          InterleaveKeepsOrder(s[1..], p[1..]);
          SubseqCons(Compact(s[1..]), p[0], Interleave(s[1..], p[1..]));
          SubseqBoth(p[1..], p[0], Interleave(s[1..], p[1..]));
          assert [p[0]] + p[1..] == p;
        }
    }
  }

  /** With distinct ranks, a ranked row's option sits in the slot of its rank. */
  lemma RankedSlot<T>(rows: seq<Row<T>>, i: nat)
    requires DistinctRanks(rows)
    requires i < |rows| && IsRanked(rows[i])
    ensures RankOf(rows[i]) <= |Slots(rows)|
    ensures Slots(rows)[RankOf(rows[i]) - 1] == Some(rows[i].item)
  {
    var x := LastRanked(rows, RankOf(rows[i]));
    var i0 :| 0 <= i0 < |rows| && rows[i0].item == x.value && IsRanked(rows[i0]) && RankOf(rows[i0]) == RankOf(rows[i]) &&
              forall j :: i0 < j < |rows| ==> RankOf(rows[j]) != RankOf(rows[i]);
    assert i0 == i;
  }

  /** Ranked options appear in ascending rank order (ranks distinct). */
  lemma RankedInRankOrder<T>(rows: seq<Row<T>>, i: nat, j: nat)
    requires DistinctRanks(rows)
    requires i < |rows| && j < |rows| && IsRanked(rows[i]) && IsRanked(rows[j])
    requires RankOf(rows[i]) < RankOf(rows[j])
    ensures exists p, q :: 0 <= p < q < |Reconcile(rows)| && Reconcile(rows)[p] == rows[i].item &&
                           Reconcile(rows)[q] == rows[j].item
  {
    var s := Slots(rows);
    RankedSlot(rows, i);
    RankedSlot(rows, j);
    CompactOrder(s, RankOf(rows[i]) - 1, RankOf(rows[j]) - 1);
    var p, q :| 0 <= p < q < |Compact(s)| && Compact(s)[p] == rows[i].item && Compact(s)[q] == rows[j].item;
    ReconcileIsInterleave(rows);
    InterleaveKeepsOrder(s, Unranked(rows));
    SubseqOrder(Compact(s), Reconcile(rows), p, q);
  }

  lemma {:induction false} UnrankedMember<T>(rows: seq<Row<T>>, i: nat)
    requires i < |rows| && !IsRanked(rows[i])
    ensures exists a :: 0 <= a < |Unranked(rows)| && Unranked(rows)[a] == rows[i].item
  {
    if i < |rows| - 1 {
      assert Init(rows)[i] == rows[i];
      UnrankedMember(Init(rows), i);
      var a :| 0 <= a < |Unranked(Init(rows))| && Unranked(Init(rows))[a] == rows[i].item;
      assert Unranked(rows)[a] == rows[i].item;
    } else {
      assert Unranked(rows)[|Unranked(Init(rows))|] == rows[i].item;
    }
  }

  lemma {:induction false} UnrankedOrder<T>(rows: seq<Row<T>>, i: nat, j: nat)
    requires i < j < |rows| && !IsRanked(rows[i]) && !IsRanked(rows[j])
    ensures exists a, b :: 0 <= a < b < |Unranked(rows)| && Unranked(rows)[a] == rows[i].item &&
                           Unranked(rows)[b] == rows[j].item
  {
    assert Init(rows)[i] == rows[i];
    if j < |rows| - 1 {
      assert Init(rows)[j] == rows[j];
      UnrankedOrder(Init(rows), i, j);
      var a, b :| 0 <= a < b < |Unranked(Init(rows))| && Unranked(Init(rows))[a] == rows[i].item &&
                  Unranked(Init(rows))[b] == rows[j].item;
      assert Unranked(rows)[a] == rows[i].item && Unranked(rows)[b] == rows[j].item;
    } else {
      UnrankedMember(Init(rows), i);
      var a :| 0 <= a < |Unranked(Init(rows))| && Unranked(Init(rows))[a] == rows[i].item;
      var b := |Unranked(Init(rows))|;
      assert Unranked(rows)[a] == rows[i].item && Unranked(rows)[b] == rows[j].item;
    }
  }

  /** Unranked options keep their relative row order. */
  lemma UnrankedInRowOrder<T>(rows: seq<Row<T>>, i: nat, j: nat)
    requires i < j < |rows| && !IsRanked(rows[i]) && !IsRanked(rows[j])
    ensures exists p, q :: 0 <= p < q < |Reconcile(rows)| && Reconcile(rows)[p] == rows[i].item &&
                           Reconcile(rows)[q] == rows[j].item
  {
    UnrankedOrder(rows, i, j);
    var a, b :| 0 <= a < b < |Unranked(rows)| && Unranked(rows)[a] == rows[i].item && Unranked(rows)[b] == rows[j].item;
    ReconcileIsInterleave(rows);
    InterleaveKeepsOrder(Slots(rows), Unranked(rows));
    SubseqOrder(Unranked(rows), Reconcile(rows), a, b);
  }

  // ---------------------------------------------------------------------------
  // Gap filling
  // ---------------------------------------------------------------------------

  lemma HolesCons<T>(x: Option<T>, t: seq<Option<T>>)
    ensures Holes([x] + t) == Holes(t) + (if x.None? then 1 else 0)
  {
    CompactCons(x, t);
  }

  /** `out` is `s` with its holes taken, left to right, by the first options of `p`, followed by the
      options of `p` left over. */
  ghost predicate HoleFilling<T>(s: seq<Option<T>>, p: seq<T>, out: seq<T>)
  {
    && |p| >= Holes(s)
    && |out| == |s| + |p| - Holes(s)
    && (forall k :: 0 <= k < |s| ==>
          if s[k].Some? then out[k] == s[k].value
          else Holes(s[..k]) < |p| && out[k] == p[Holes(s[..k])])
    && out[|s|..] == p[Holes(s)..]
  }

  lemma HolesPrefixCons<T>(y: Option<T>, t: seq<Option<T>>, k: nat)
    requires 1 <= k <= |t| + 1
    ensures Holes(([y] + t)[..k]) == Holes(t[..k - 1]) + (if y.None? then 1 else 0)
  {
    assert ([y] + t)[..k] == [y] + t[..k - 1];
    HolesCons(y, t[..k - 1]);
  }

  lemma ConsFilled<T>(x: T, t: seq<Option<T>>, p: seq<T>, out: seq<T>)
    requires HoleFilling(t, p, out)
    ensures HoleFilling([Some(x)] + t, p, [x] + out)
  {
    var s := [Some(x)] + t;
    HolesCons(Some(x), t);
    forall k | 0 <= k < |s|
      ensures if s[k].Some? then ([x] + out)[k] == s[k].value
              else Holes(s[..k]) < |p| && ([x] + out)[k] == p[Holes(s[..k])]
    {
      if k > 0 {
        HolesPrefixCons(Some(x), t, k);
        assert s[k] == t[k - 1] && ([x] + out)[k] == out[k - 1];
      }
    }
    assert ([x] + out)[|s|..] == out[|t|..];
  }

  lemma ConsHole<T>(t: seq<Option<T>>, p: seq<T>, out: seq<T>)
    requires |p| > 0
    requires HoleFilling(t, p[1..], out)
    ensures HoleFilling([None] + t, p, [p[0]] + out)
  {
    var s: seq<Option<T>> := [None] + t;
    HolesCons(None, t);
    forall k | 0 <= k < |s|
      ensures if s[k].Some? then ([p[0]] + out)[k] == s[k].value
              else Holes(s[..k]) < |p| && ([p[0]] + out)[k] == p[Holes(s[..k])]
    {
      if k > 0 {
        HolesPrefixCons(None, t, k);
        assert s[k] == t[k - 1] && ([p[0]] + out)[k] == out[k - 1];
      } else {
        assert s[..0] == [];
      }
    }
    assert ([p[0]] + out)[|s|..] == out[|t|..];
    assert p[1..][Holes(t)..] == p[Holes(s)..];
  }

  /** When the pending options cover every hole, each hole gets the next pending option in slot
      order, filled slots stay where they are, and only the surplus is appended. */
  lemma {:induction false} InterleaveFillsHoles<T>(s: seq<Option<T>>, p: seq<T>)
    requires |p| >= Holes(s)
    ensures HoleFilling(s, p, Interleave(s, p))
  {
    if |s| == 0 {
      assert p[0..] == p;
    } else {
      var t := s[1..];
      assert s == [s[0]] + t;
      HolesCons(s[0], t);
      match s[0]
      case Some(x) =>
        InterleaveFillsHoles(t, p);
        ConsFilled(x, t, p, Interleave(t, p));
      case None =>
        InterleaveFillsHoles(t, p[1..]);
        ConsHole(t, p, Interleave(t, p[1..]));
    }
  }

  /** `out` fills the holes of `s` before the cut `c` with all of `p`, left to right, and after the
      cut holds only the filled slots of `s`, in order. */
  ghost predicate FilledUpTo<T>(s: seq<Option<T>>, p: seq<T>, out: seq<T>, c: nat)
  {
    && c <= |s| && c <= |out|
    && Holes(s[..c]) == |p|
    && HoleFilling(s[..c], p, out[..c])
    && out[c..] == Compact(s[c..])
  }

  /** When the pending options run out before the holes do, they fill the holes left to right up to
      some cut `c` (a prefix holding exactly `|p|` holes); past the cut only the filled slots
      survive, in slot order, and nothing is appended. */
  lemma {:induction false} InterleaveFillsFirstHoles<T>(s: seq<Option<T>>, p: seq<T>) returns (c: nat)
    requires |p| <= Holes(s)
    ensures FilledUpTo(s, p, Interleave(s, p), c)
  {
    if |p| == 0 {
      c := 0;
      FilledUpToNothing(s);
    } else {
      HolesTail(s);
      if s[0].Some? {
        var c' := InterleaveFillsFirstHoles(s[1..], p);
        c := c' + 1;
        FilledUpToFilled(s, p, c');
      } else {
        var c' := InterleaveFillsFirstHoles(s[1..], p[1..]);
        c := c' + 1;
        FilledUpToHole(s, p, c');
      }
    }
  }

  lemma FilledUpToNothing<T>(s: seq<Option<T>>)
    ensures FilledUpTo(s, [], Interleave(s, []), 0)
  {
    InterleaveNothingPending(s);
    assert s[..0] == [] && s[0..] == s;
    assert Interleave(s, [])[..0] == [] && Interleave(s, [])[0..] == Interleave(s, []);
  }

  /** The holes of a non-empty slot sequence: those of its tail, plus one for an empty head. */
  lemma HolesTail<T>(s: seq<Option<T>>)
    requires |s| > 0
    ensures Holes(s) == Holes(s[1..]) + (if s[0].None? then 1 else 0)
  {
    assert s == [s[0]] + s[1..];
    HolesCons(s[0], s[1..]);
  }

  /** A filled head slot passes to the output and moves the cut one place. */
  lemma FilledUpToFilled<T>(s: seq<Option<T>>, p: seq<T>, c: nat)
    requires |s| > 0 && s[0].Some?
    requires FilledUpTo(s[1..], p, Interleave(s[1..], p), c)
    ensures FilledUpTo(s, p, Interleave(s, p), c + 1)
  {
    FilledHeadPrefix(s, p, c);
    FilledHeadSuffix(s, p, c);
  }

  lemma FilledHeadPrefix<T>(s: seq<Option<T>>, p: seq<T>, c: nat)
    requires |s| > 0 && s[0].Some? && c < |s| && c <= |Interleave(s[1..], p)|
    requires HoleFilling(s[1..][..c], p, Interleave(s[1..], p)[..c])
    ensures c + 1 <= |Interleave(s, p)|
    ensures Holes(s[..c + 1]) == Holes(s[1..][..c])
    ensures HoleFilling(s[..c + 1], p, Interleave(s, p)[..c + 1])
  {
    var x, t, out := s[0].value, s[1..], Interleave(s[1..], p);
    assert Interleave(s, p) == [x] + out;
    PrefixCons(s, c);
    PrefixCons(Interleave(s, p), c);
    HolesCons(Some(x), t[..c]);
    ConsFilled(x, t[..c], p, out[..c]);
  }

  /** A prefix one longer than a prefix of the tail is the head followed by that prefix. */
  lemma PrefixCons<T>(s: seq<T>, c: nat)
    requires c < |s|
    ensures s[..c + 1] == [s[0]] + s[1..][..c]
  {
  }

  lemma FilledHeadSuffix<T>(s: seq<Option<T>>, p: seq<T>, c: nat)
    requires |s| > 0 && s[0].Some? && c < |s| && c <= |Interleave(s[1..], p)|
    requires Interleave(s[1..], p)[c..] == Compact(s[1..][c..])
    ensures c + 1 <= |Interleave(s, p)|
    ensures Interleave(s, p)[c + 1..] == Compact(s[c + 1..])
  {
    assert Interleave(s, p) == [s[0].value] + Interleave(s[1..], p);
    assert s[c + 1..] == s[1..][c..];
  }

  /** An empty head slot takes the first pending option and moves the cut one place. */
  lemma FilledUpToHole<T>(s: seq<Option<T>>, p: seq<T>, c: nat)
    requires |s| > 0 && s[0].None? && |p| > 0
    requires FilledUpTo(s[1..], p[1..], Interleave(s[1..], p[1..]), c)
    ensures FilledUpTo(s, p, Interleave(s, p), c + 1)
  {
    HoleHeadPrefix(s, p, c);
    HoleHeadSuffix(s, p, c);
  }

  lemma HoleHeadPrefix<T>(s: seq<Option<T>>, p: seq<T>, c: nat)
    requires |s| > 0 && s[0].None? && |p| > 0 && c < |s| && c <= |Interleave(s[1..], p[1..])|
    requires HoleFilling(s[1..][..c], p[1..], Interleave(s[1..], p[1..])[..c])
    ensures c + 1 <= |Interleave(s, p)|
    ensures Holes(s[..c + 1]) == Holes(s[1..][..c]) + 1
    ensures HoleFilling(s[..c + 1], p, Interleave(s, p)[..c + 1])
  {
    var t, out := s[1..], Interleave(s[1..], p[1..]);
    assert Interleave(s, p) == [p[0]] + out;
    PrefixCons(s, c);
    PrefixCons(Interleave(s, p), c);
    HolesCons(None, t[..c]);
    ConsHole(t[..c], p, out[..c]);
  }

  lemma HoleHeadSuffix<T>(s: seq<Option<T>>, p: seq<T>, c: nat)
    requires |s| > 0 && s[0].None? && |p| > 0 && c < |s| && c <= |Interleave(s[1..], p[1..])|
    requires Interleave(s[1..], p[1..])[c..] == Compact(s[1..][c..])
    ensures c + 1 <= |Interleave(s, p)|
    ensures Interleave(s, p)[c + 1..] == Compact(s[c + 1..])
  {
    assert Interleave(s, p) == [p[0]] + Interleave(s[1..], p[1..]);
    assert s[c + 1..] == s[1..][c..];
  }

  /** Gap filling in the reconciliation. When there are at least as many unranked options as empty
      rank slots, every slot below `maxRank` is occupied (ranked options in their slots, holes taken
      by unranked options left to right) and the remaining unranked options are appended in order.
      When there are at most as many, they take the first holes left to right up to a cut; past the
      cut the ranked options follow in slot order, the unfilled holes vanish and nothing is
      appended. */
  lemma ReconcileFillsGaps<T>(rows: seq<Row<T>>)
    ensures |Unranked(rows)| >= Holes(Slots(rows)) ==> HoleFilling(Slots(rows), Unranked(rows), Reconcile(rows))
    ensures |Unranked(rows)| <= Holes(Slots(rows)) ==>
              && |Reconcile(rows)| == |Slots(rows)| - (Holes(Slots(rows)) - |Unranked(rows)|)
              && multiset(Unranked(rows)) <= multiset(Reconcile(rows))
              && exists c :: FilledUpTo(Slots(rows), Unranked(rows), Reconcile(rows), c)
  {
    var s, u := Slots(rows), Unranked(rows);
    ReconcileIsInterleave(rows);
    InterleaveMultiset(s, u);
    if |u| >= Holes(s) {
      InterleaveFillsHoles(s, u);
    }
    if |u| <= Holes(s) {
      var c := InterleaveFillsFirstHoles(s, u);
    }
    assert |multiset(Reconcile(rows))| == |Compact(s)| + |u|;
  }

  // ---------------------------------------------------------------------------
  // Contiguous ranks, as after a full-replace edit
  // ---------------------------------------------------------------------------

  /** When every rank 1..n is used and none exceeds n, the rank slots are exactly n and all filled. */
  lemma ContiguousSlotsFull<T>(rows: seq<Row<T>>, n: nat)
    requires forall i :: 0 <= i < |rows| ==> RankOf(rows[i]) <= n
    requires forall r :: 1 <= r <= n ==> LastRanked(rows, r).Some?
    ensures |Slots(rows)| == n
    ensures forall k :: 0 <= k < n ==> Slots(rows)[k].Some?
  {
    if n > 0 {
      assert LastRanked(rows, n).Some?;
    }
  }

  /** When the ranks are exactly 1..n, each once, the ranked options come first, each at position
      `rank - 1`, followed by the unranked options in row order. */
  lemma ReconcileContiguous<T>(rows: seq<Row<T>>, n: nat)
    requires DistinctRanks(rows)
    requires forall i :: 0 <= i < |rows| ==> RankOf(rows[i]) <= n
    requires forall r :: 1 <= r <= n ==> LastRanked(rows, r).Some?
    ensures |Reconcile(rows)| == |rows| && n <= |rows|
    ensures forall i :: 0 <= i < |rows| && IsRanked(rows[i]) ==> Reconcile(rows)[RankOf(rows[i]) - 1] == rows[i].item
    ensures Reconcile(rows)[n..] == Unranked(rows)
  {
    var s := Slots(rows);
    ContiguousSlotsFull(rows, n);
    ReconcileIsInterleave(rows);
    assert s + [] == s;
    InterleaveFilledPrefix(s, [], Unranked(rows));
    CompactFull(s);
    assert Reconcile(rows) == Compact(s) + Unranked(rows);
    ReconcileIsPermutation(rows);
    forall i | 0 <= i < |rows| && IsRanked(rows[i]) ensures Reconcile(rows)[RankOf(rows[i]) - 1] == rows[i].item {
      RankedSlot(rows, i);
    }
  }

  // ---------------------------------------------------------------------------
  // The worked examples
  // ---------------------------------------------------------------------------

  /** Options A..D with B ranked 1 and D ranked 3, A and C unranked, in that row order. */
  function GapRows(): seq<Row<char>>
  {
    [Row('A', None), Row('B', Some(1)), Row('C', None), Row('D', Some(3))]
  }

  lemma GapRowsMax()
    ensures MaxRank(GapRows()) == 3
  {
    var rows := GapRows();
    var a, b, c, d := rows[0], rows[1], rows[2], rows[3];
    assert Init(rows) == [a, b, c] && Init([a, b, c]) == [a, b] && Init([a, b]) == [a] && Init([a]) == [];
    assert MaxRank([a]) == 0;
    assert MaxRank([a, b]) == 1;
    assert MaxRank([a, b, c]) == 1;
  }

  lemma GapRowsLastRanked()
    ensures LastRanked(GapRows(), 1) == Some('B')
    ensures LastRanked(GapRows(), 2) == None
    ensures LastRanked(GapRows(), 3) == Some('D')
  {
    var rows := GapRows();
    var a, b, c, d := rows[0], rows[1], rows[2], rows[3];
    assert Init(rows) == [a, b, c] && Init([a, b, c]) == [a, b];
    assert LastRanked([a, b], 1) == Some('B');
    assert LastRanked([a, b, c], 1) == Some('B');
  }

  lemma GapRowsSlots()
    ensures Slots(GapRows()) == [Some('B'), None, Some('D')]
  {
    GapRowsMax();
    GapRowsLastRanked();
    var s: seq<Option<char>> := [Some('B'), None, Some('D')];
    forall k | 0 <= k < |s| ensures s[k] == LastRanked(GapRows(), k + 1) {
      assert k == 0 || k == 1 || k == 2;
    }
    SlotsAre(GapRows(), s);
  }

  /** The slot sequence is determined by its length and the last ranked option of every rank. */
  lemma SlotsAre<T>(rows: seq<Row<T>>, s: seq<Option<T>>)
    requires |s| == MaxRank(rows)
    requires forall k :: 0 <= k < |s| ==> s[k] == LastRanked(rows, k + 1)
    ensures Slots(rows) == s
  {
  }

  lemma GapRowsUnranked()
    ensures Unranked(GapRows()) == ['A', 'C']
  {
    var rows := GapRows();
    var a, b, c, d := rows[0], rows[1], rows[2], rows[3];
    assert Init(rows) == [a, b, c] && Init([a, b, c]) == [a, b] && Init([a, b]) == [a] && Init([a]) == [];
    assert Unranked([a]) == ['A'];
    assert Unranked([a, b]) == ['A'];
    assert Unranked([a, b, c]) == ['A', 'C'];
  }

  /** The gap-filling example: B takes slot 0, A the hole at slot 1, D slot 2, and C is appended. */
  lemma GapFillingExample()
    ensures Reconcile(GapRows()) == ['B', 'A', 'D', 'C']
  {
    GapRowsSlots();
    GapRowsUnranked();
    ReconcileIsInterleave(GapRows());
    GapInterleave();
  }

  /** The reference merge on the slots and pending options of the gap-filling example. */
  lemma GapInterleave()
    ensures Interleave([Some('B'), None, Some('D')], ['A', 'C']) == ['B', 'A', 'D', 'C']
  {
    var s: seq<Option<char>> := [Some('B'), None, Some('D')];
    var p: seq<char> := ['A', 'C'];
    assert s[1..] == [None, Some('D')] && s[1..][1..] == [Some('D')] && s[1..][1..][1..] == [];
    assert p[1..] == ['C'];
    assert Interleave(s[1..][1..], p[1..]) == ['D', 'C'];
    assert Interleave(s[1..], p) == ['A', 'D', 'C'];
  }

  /** A lone option ranked 2 (rank 1 left behind by a deleted option): the hole vanishes. */
  lemma OrphanRankExample()
    ensures Reconcile([Row('X', Some(2))]) == ['X']
  {
    var rows := [Row('X', Some(2))];
    ReconcileIsInterleave(rows);
    assert MaxRank(rows) == 2;
    var s := Slots(rows);
    assert s[0] == LastRanked(rows, 1) == None;
    assert s[1] == LastRanked(rows, 2) == Some('X');
    assert s == [None, Some('X')];
    assert Unranked(rows) == [];
    InterleaveNothingPending(s);
  }

  function ScarceRows(): seq<Row<char>>
  {
    [Row('A', None), Row('X', Some(2)), Row('Y', Some(4))]
  }

  lemma ScarceRowsFacts()
    ensures MaxRank(ScarceRows()) == 4
    ensures Unranked(ScarceRows()) == ['A']
    ensures LastRanked(ScarceRows(), 2) == Some('X')
  {
    var rows := ScarceRows();
    var a, x, y := rows[0], rows[1], rows[2];
    assert Init(rows) == [a, x] && Init([a, x]) == [a] && Init([a]) == [];
    assert MaxRank([a, x]) == 2;
    assert Unranked([a, x]) == ['A'];
    assert LastRanked([a, x], 2) == Some('X');
  }

  lemma ScarceRowsSlots()
    ensures Slots(ScarceRows()) == [None, Some('X'), None, Some('Y')]
  {
    ScarceRowsFacts();
    var s: seq<Option<char>> := [None, Some('X'), None, Some('Y')];
    forall k | 0 <= k < |s| ensures s[k] == LastRanked(ScarceRows(), k + 1) {
      assert k == 0 || k == 1 || k == 2 || k == 3;
    }
    SlotsAre(ScarceRows(), s);
  }

  /** Fewer unranked options than holes: A takes the first hole, X and Y keep their order, and the
      hole before Y vanishes. */
  lemma ScarceUnrankedExample()
    ensures Reconcile(ScarceRows()) == ['A', 'X', 'Y']
  {
    ScarceRowsFacts();
    ScarceRowsSlots();
    ReconcileIsInterleave(ScarceRows());
    ScarceInterleave();
  }

  /** The reference merge on the slots and pending options of the scarce example. */
  lemma ScarceInterleave()
    ensures Interleave([None, Some('X'), None, Some('Y')], ['A']) == ['A', 'X', 'Y']
  {
    var s: seq<Option<char>> := [None, Some('X'), None, Some('Y')];
    var t := s[1..];
    assert t == [Some('X'), None, Some('Y')];
    InterleaveNothingPending(t);
    CompactCons(Some('X'), [None, Some('Y')]);
    CompactCons(None, [Some('Y')]);
    CompactCons(Some('Y'), []);
    assert ['A'][1..] == [];
  }

  /** Duplicate ranks: the later row's write wins and the earlier option disappears from the ranking. */
  lemma DuplicateRankExample()
    ensures Reconcile([Row('P', Some(1)), Row('Q', Some(1))]) == ['Q']
  {
    var rows := [Row('P', Some(1)), Row('Q', Some(1))];
    ReconcileIsInterleave(rows);
    assert MaxRank(rows) == 1;
    var s := Slots(rows);
    assert s[0] == LastRanked(rows, 1) == Some('Q');
    assert s == [Some('Q')];
    assert Unranked(rows) == [];
  }
}

=== FILE: ranking_loop.dfy ===
/**
  The reconciliation written the way `Participants.getFromId` writes it: a
  mutable slot array, a `reduce` for the maximum rank, a placement loop, an
  unranked loop with a forward-only cursor and a push past the end, and a final
  filter. Each step is proved to compute its functional counterpart in
  `Ranking`, so the whole computes exactly `Ranking.Reconcile`.
*/
module RankingLoop {
  import opened Wrappers
  import opened Ranking

  /** The largest truthy rank among the rows, 0 when none is ranked, computed by one pass. */
  method ComputeMaxRank<T>(rows: seq<Row<T>>) returns (maxRank: nat)
    ensures forall i :: 0 <= i < |rows| ==> RankOf(rows[i]) <= maxRank
    ensures maxRank == 0 || exists i :: 0 <= i < |rows| && RankOf(rows[i]) == maxRank
    ensures maxRank == MaxRank(rows)
  {
    maxRank := 0;
    var i := 0;
    while i < |rows|
      invariant i <= |rows|
      invariant maxRank == MaxRank(rows[..i])
    {
      assert Init(rows[..i + 1]) == rows[..i];
      if IsRanked(rows[i]) && RankOf(rows[i]) > maxRank {
        maxRank := RankOf(rows[i]);
      }
      i := i + 1;
    }
    assert rows[..i] == rows;
  }

  /** Each ranked row writes its option into the slot of its rank, in row order. */
  method PlaceRanked<T>(rows: seq<Row<T>>, maxRank: nat) returns (slots: seq<Option<T>>)
    requires maxRank == MaxRank(rows)
    ensures |slots| == maxRank
    ensures forall k :: 0 <= k < maxRank ==> slots[k] == LastRanked(rows, k + 1)
  {
    slots := EmptySlots(maxRank);
    var i := 0;
    while i < |rows|
      invariant i <= |rows|
      invariant slots == Place(EmptySlots(maxRank), rows[..i])
    {
      assert Init(rows[..i + 1]) == rows[..i];
      if IsRanked(rows[i]) {
        slots := slots[RankOf(rows[i]) - 1 := Some(rows[i].item)];
      }
      i := i + 1;
    }
    assert rows[..i] == rows;
  }

  /** The options of the unranked rows, in row order, collected by one pass. */
  method CollectUnranked<T>(rows: seq<Row<T>>) returns (unranked: seq<T>)
    ensures unranked == Unranked(rows)
  {
    unranked := [];
    var i := 0;
    while i < |rows|
      invariant i <= |rows|
      invariant unranked == Unranked(rows[..i])
    {
      assert Init(rows[..i + 1]) == rows[..i];
      if !IsRanked(rows[i]) {
        unranked := unranked + [rows[i].item];
      }
      i := i + 1;
    }
    assert rows[..i] == rows;
  }

  /** The cursor walk: skip filled slots, fill the hole or push past the end, advance. */
  method FillUnranked<T>(start: seq<Option<T>>, unranked: seq<T>) returns (slots: seq<Option<T>>)
    ensures |start| <= |slots|
    ensures forall k :: 0 <= k < |start| && start[k].Some? ==> slots[k] == start[k]
    ensures slots == Fill(start, 0, unranked)
  {
    slots := start;
    var currentIndex := 0;
    var n := 0;
    while n < |unranked|
      invariant n <= |unranked|
      invariant currentIndex <= |slots|
      invariant Fill(slots, currentIndex, unranked[n..]) == Fill(start, 0, unranked)
    {
      var from := currentIndex;
      while currentIndex < |slots| && slots[currentIndex].Some?
        invariant from <= currentIndex <= |slots|
        invariant NextFree(slots, currentIndex) == NextFree(slots, from)
      {
        currentIndex := currentIndex + 1;
      }
      assert unranked[n..][1..] == unranked[n + 1..];
      if currentIndex < |slots| {
        slots := slots[currentIndex := Some(unranked[n])];
      } else {
        slots := slots + [Some(unranked[n])];
      }
      currentIndex := currentIndex + 1;
      n := n + 1;
    }
    assert unranked[n..] == [];
  }

  /** The filled slots, in slot order, collected by one pass. */
  method DropEmpty<T>(slots: seq<Option<T>>) returns (wishRanking: seq<T>)
    ensures |wishRanking| <= |slots|
    ensures wishRanking == Compact(slots)
  {
    wishRanking := [];
    var i := 0;
    while i < |slots|
      invariant i <= |slots|
      invariant wishRanking == Compact(slots[..i])
    {
      assert Init(slots[..i + 1]) == slots[..i];
      if slots[i].Some? {
        wishRanking := wishRanking + [slots[i].value];
      }
      i := i + 1;
    }
    assert slots[..i] == slots;
  }

  /** The whole of the reconciliation in `Participants.getFromId`. */
  method ReconcileRows<T>(rows: seq<Row<T>>) returns (wishRanking: seq<T>)
    ensures wishRanking == Reconcile(rows)
  {
    var maxRank := ComputeMaxRank(rows);
    var slots := PlaceRanked(rows, maxRank);
    assert slots == Slots(rows);
    var unranked := CollectUnranked(rows);
    slots := FillUnranked(slots, unranked);
    wishRanking := DropEmpty(slots);
  }
}

=== FILE: status.dfy ===
/**
  The campaign status column of `Campaigns.getAll` and `Campaigns.getFromId`:
  a SQL `CASE` over the current time and the campaign's bounds. The branches are
  tried in order and the first match wins; `BETWEEN` includes both bounds. The
  clock `NOW()` is passed in as `now`.
*/
module Status {

  datatype CampaignStatus = Pending | Active | Finished

  /** Position in the lifecycle, for stating monotonicity. */
  function Stage(s: CampaignStatus): nat
  {
    match s
    case Pending => 0
    case Active => 1
    case Finished => 2
  }

  /** The `CASE` expression. It has no `ELSE`, so it would yield NULL when no branch matched;
      the last branch is reached only when `start <= now` and `now > end`, so that never happens. */
  function StatusAt(now: int, start: int, end: int): (r: CampaignStatus)
    ensures r == Pending <==> now < start
    ensures r == Active <==> start <= now <= end
    ensures r == Finished <==> start <= now && end < now
  {
    if now < start then Pending
    else if start <= now <= end then Active
    else assert now > end; Finished
  }

  /** With ordered bounds the status follows the interval rule, boundaries inclusive. */
  lemma IntervalRule(now: int, start: int, end: int)
    requires start <= end
    ensures StatusAt(now, start, end) == (if now < start then Pending else if now <= end then Active else Finished)
    ensures StatusAt(start, start, end) == Active && StatusAt(end, start, end) == Active
  {
  }

  /** As time passes the status only moves forward: pending, then active, then finished. */
  lemma StatusMonotone(now1: int, now2: int, start: int, end: int)
    requires now1 <= now2
    ensures Stage(StatusAt(now1, start, end)) <= Stage(StatusAt(now2, start, end))
  {
  }

  /** With inverted bounds the first-match `CASE` never reports active: it jumps from pending to finished. */
  lemma InvertedNeverActive(now: int, start: int, end: int)
    requires start > end
    ensures StatusAt(now, start, end) != Active
    ensures StatusAt(now, start, end) == (if now < start then Pending else Finished)
  {
  }
}

=== FILE: store.dfy ===
/**
  The relational store the model layer works on: four tables held as sequences
  in the order the store returns their rows (no query of the core has an
  ORDER BY, so row order is part of the state rather than a promise). Every
  model-layer call is one atomic transition of this value; a call that throws
  rolls its transaction back and leaves the value as it was.
*/
module Store {
  import opened Wrappers

  type Id = string

  datatype Campaign = Campaign(id: Id, name: string, creatorId: Id, start: int, end: int)

  datatype OptionRow = OptionRow(id: Id, campaignId: Id, name: string, minParticipants: int, maxParticipants: int)

  /** The `participants` table stores no e-mail address: `Participants.add` inserts only these columns. */
  datatype Participant = Participant(id: Id, campaignId: Id, name: string)

  datatype Wish = Wish(participantId: Id, optionId: Id, rank: nat)

  datatype Db = Db(campaigns: seq<Campaign>, options: seq<OptionRow>, participants: seq<Participant>, wishes: seq<Wish>)

  /** The store after a call and what the call returned, or the error it threw. */
  datatype Txn<+R> = Txn(db: Db, result: Result<R>)

  /** The bounds the option schemas impose before an option reaches the store. */
  predicate OptionFieldsOk(name: string, minParticipants: int, maxParticipants: int)
  {
    1 <= |name| <= 32 && 1 <= minParticipants <= maxParticipants
  }

  ghost predicate UniqueCampaignIds(s: seq<Campaign>)
  {
    UniqueKeys((c: Campaign) => c.id, s)
  }

  ghost predicate UniqueOptionIds(s: seq<OptionRow>)
  {
    UniqueKeys((o: OptionRow) => o.id, s)
  }

  ghost predicate UniqueParticipantIds(s: seq<Participant>)
  {
    UniqueKeys((p: Participant) => p.id, s)
  }

  /** Primary keys are unique and every option row satisfies the option schema. */
  ghost predicate Valid(db: Db)
  {
    && UniqueCampaignIds(db.campaigns)
    && UniqueOptionIds(db.options)
    && UniqueParticipantIds(db.participants)
    && forall i :: 0 <= i < |db.options| ==>
         OptionFieldsOk(db.options[i].name, db.options[i].minParticipants, db.options[i].maxParticipants)
  }

  /** The option rows of one campaign, in table order. */
  function OptionsOf(db: Db, campaignId: Id): seq<OptionRow>
  {
    Filter((o: OptionRow) => o.campaignId == campaignId, db.options)
  }

  /** The ids of a list of option rows, position by position. */
  function OptionIds(s: seq<OptionRow>): (r: seq<Id>)
    ensures |r| == |s|
    ensures forall i :: 0 <= i < |s| ==> r[i] == s[i].id
  {
    seq(|s|, i requires 0 <= i < |s| => s[i].id)
  }

  /** An id listed among some option rows is the id of one of them, at a position this returns. */
  lemma OptionIdIndex(s: seq<OptionRow>, x: Id) returns (i: nat)
    requires x in OptionIds(s)
    ensures i < |s| && s[i].id == x
  {
    var ids := OptionIds(s);
    i :| i < |ids| && ids[i] == x;
  }

  /** The participant rows of one campaign, in table order. */
  function ParticipantsOf(db: Db, campaignId: Id): seq<Participant>
  {
    Filter((p: Participant) => p.campaignId == campaignId, db.participants)
  }

  /** The participant row a lookup by id returns first. */
  function FindParticipant(db: Db, id: Id): Option<Participant>
  {
    First((p: Participant) => p.id == id, db.participants)
  }

  /** The campaign row a lookup by id returns first. */
  function FindCampaign(db: Db, id: Id): Option<Campaign>
  {
    First((c: Campaign) => c.id == id, db.campaigns)
  }

  /** The wish rows of one participant, in table order. */
  function WishesOf(wishes: seq<Wish>, participantId: Id): seq<Wish>
  {
    Filter((w: Wish) => w.participantId == participantId, wishes)
  }

  /** Appending an option row lists it last under its own campaign and nowhere else. */
  lemma OptionsOfAppend(db: Db, row: OptionRow, campaignId: Id)
    ensures OptionsOf(db.(options := db.options + [row]), campaignId) ==
            OptionsOf(db, campaignId) + (if row.campaignId == campaignId then [row] else [])
  {
    var f := (o: OptionRow) => o.campaignId == campaignId;
    FilterConcat(f, db.options, [row]);
    assert Filter(f, [row]) == if f(row) then [row] else [];
  }

  /** The options of one campaign in a valid store have distinct ids. */
  lemma OptionsOfUnique(db: Db, campaignId: Id)
    requires Valid(db)
    ensures UniqueOptionIds(OptionsOf(db, campaignId))
  {
    FilterKeepsUnique((o: OptionRow) => o.id, (o: OptionRow) => o.campaignId == campaignId, db.options);
  }

  // ---------------------------------------------------------------------------
  // Facts about filtering tables
  // ---------------------------------------------------------------------------

  /** Filtering twice with predicates where the outer one implies the inner one is filtering once. */
  lemma {:induction false} FilterFilter<T>(f: T -> bool, g: T -> bool, s: seq<T>)
    requires forall x :: f(x) ==> g(x)
    ensures Filter(f, Filter(g, s)) == Filter(f, s)
  {
    if |s| > 0 {
      FilterFilter(f, g, s[1..]);
    }
  }

  /** Filtering with two predicates that agree on every row gives the same rows. */
  lemma {:induction false} FilterSame<T>(f: T -> bool, g: T -> bool, s: seq<T>)
    requires forall i :: 0 <= i < |s| ==> f(s[i]) == g(s[i])
    ensures Filter(f, s) == Filter(g, s)
  {
    if |s| > 0 {
      FilterSame(f, g, s[1..]);
    }
  }

  /** A filtered table keeps its primary keys unique. */
  lemma {:induction false} FilterKeepsUnique<T, K>(key: T -> K, f: T -> bool, s: seq<T>)
    requires UniqueKeys(key, s)
    ensures UniqueKeys(key, Filter(f, s))
  {
    if |s| > 0 {
      var t := s[1..];
      assert UniqueKeys(key, t) by {
        forall i, j | 0 <= i < |t| && 0 <= j < |t| && key(t[i]) == key(t[j]) ensures i == j {
          assert s[i + 1] == t[i] && s[j + 1] == t[j];
        }
      }
      FilterKeepsUnique(key, f, t);
      if f(s[0]) {
        var r := Filter(f, s);
        assert r == [s[0]] + Filter(f, t);
        forall i, j | 0 <= i < |r| && 0 <= j < |r| && key(r[i]) == key(r[j]) ensures i == j {
          if i > 0 && j > 0 {
            assert r[i] == Filter(f, t)[i - 1] && r[j] == Filter(f, t)[j - 1];
          }
        }
      }
    }
  }

  /** Rewriting fields other than the key keeps primary keys unique. */
  lemma UniqueAfterUpdate<T, K>(key: T -> K, s: seq<T>, s': seq<T>)
    requires UniqueKeys(key, s)
    requires |s'| == |s| && forall i :: 0 <= i < |s| ==> key(s'[i]) == key(s[i])
    ensures UniqueKeys(key, s')
  {
  }

  /** Appending a row whose key is new keeps primary keys unique. */
  lemma UniqueAfterInsert<T, K>(key: T -> K, s: seq<T>, x: T)
    requires UniqueKeys(key, s)
    requires forall i :: 0 <= i < |s| ==> key(s[i]) != key(x)
    ensures UniqueKeys(key, s + [x])
  {
  }
}

=== FILE: wrappers.dfy ===
/** Small failure-carrying datatypes and sequence helpers shared by the model. */
module Wrappers {

  /** A value that may be absent: SQL NULL, a JavaScript `undefined`. */
  datatype Option<+T> = None | Some(value: T)

  /** Why a model-layer call throws instead of returning. */
  datatype Error =
    | CampaignNotFound      // Campaigns.getFromId on an unknown id
    | ReferenceError        // a name the module never imported
    | TypeError             // a property read on `undefined`

  /** The outcome of a call that either returns a value or throws. */
  datatype Result<+R> = Success(value: R) | Failure(error: Error)

  /** The rows of `s` that satisfy `f`, in their original order. */
  function Filter<T>(f: T -> bool, s: seq<T>): (r: seq<T>)
    ensures |r| <= |s|
    ensures forall i :: 0 <= i < |r| ==> r[i] in s && f(r[i])
    ensures forall i :: 0 <= i < |s| && f(s[i]) ==> s[i] in r
  {
    if |s| == 0 then []
    else if f(s[0]) then [s[0]] + Filter(f, s[1..])
    else Filter(f, s[1..])
  }

  lemma {:induction false} FilterConcat<T>(f: T -> bool, a: seq<T>, b: seq<T>)
    ensures Filter(f, a + b) == Filter(f, a) + Filter(f, b)
  {
    if |a| == 0 {
      assert a + b == b;
    } else {
      assert (a + b)[1..] == a[1..] + b;
      FilterConcat(f, a[1..], b);
    }
  }

  /** Filtering keeps every row when every row passes. */
  lemma {:induction false} FilterAll<T>(f: T -> bool, s: seq<T>)
    requires forall i :: 0 <= i < |s| ==> f(s[i])
    ensures Filter(f, s) == s
  {
    if |s| > 0 {
      FilterAll(f, s[1..]);
    }
  }

  /** Filtering keeps nothing when no row passes. */
  lemma {:induction false} FilterNone<T>(f: T -> bool, s: seq<T>)
    requires forall i :: 0 <= i < |s| ==> !f(s[i])
    ensures Filter(f, s) == []
  {
    if |s| > 0 {
      FilterNone(f, s[1..]);
    }
  }

  /** The position of the first row of `s` satisfying `f`, or `|s|` when none does. */
  function FirstIndex<T>(f: T -> bool, s: seq<T>): (i: nat)
    ensures i <= |s|
    ensures i < |s| ==> f(s[i])
    ensures forall j :: 0 <= j < i ==> !f(s[j])
  {
    if |s| == 0 then 0
    else if f(s[0]) then 0
    else 1 + FirstIndex(f, s[1..])
  }

  /** Two sequences that agree position by position on `f` have their first `f`-row at the same place. */
  lemma {:induction false} FirstIndexSame<T>(f: T -> bool, s: seq<T>, s': seq<T>)
    requires |s| == |s'| && forall i :: 0 <= i < |s| ==> f(s[i]) == f(s'[i])
    ensures FirstIndex(f, s) == FirstIndex(f, s')
  {
    if |s| > 0 {
      FirstIndexSame(f, s[1..], s'[1..]);
    }
  }

  /** The first row of `s` that satisfies `f`, as `rows[0]` of a query. */
  function First<T>(f: T -> bool, s: seq<T>): (r: Option<T>)
    ensures r.None? <==> forall i :: 0 <= i < |s| ==> !f(s[i])
    ensures r.Some? ==> r.value in s && f(r.value)
  {
    var i := FirstIndex(f, s);
    if i < |s| then Some(s[i]) else None
  }

  /** No two distinct positions of `s` hold the same key. */
  ghost predicate UniqueKeys<T, K>(key: T -> K, s: seq<T>)
  {
    forall i, j :: 0 <= i < |s| && 0 <= j < |s| && key(s[i]) == key(s[j]) ==> i == j
  }
}
